=== FILE: README.md ===
# Matching words with definitions — a verified model of the game core

The component `App.jsx` implements a classroom matching game. A teacher pastes
lines such as `polite — shows good manners and respect`. The component parses
them into term/definition pairs and builds a deck of cards from the pairs. It
then samples a pool of the deck for a round and shows the pool twice, terms on
the left and definitions on the right, each column in its own shuffled order.
The player clicks one card on each side. Equal match keys score points,
raise the streak and disable those cards. Different keys count a mistake and
break the streak. An optional countdown runs while the round is open.

The model is written in Dafny, one module per part of the component:

- `Options`: the optional value used where the component uses `null`, and
  `KeepSome`, a map followed by a filter that drops absent results.
- `Text`: white space as JavaScript defines it, shared by `\s` and `trim()`.
  Also `trim()`, `split(/\n+/)` and `join(" ")`.
- `PairParser`: `parsePairs`. The separator pattern `\s*[—:-]\s+|,\s+` is a
  hand-written matcher. `MatchAt` tries the pattern at one position,
  `FirstMatch` finds the leftmost match, and `SplitSep` is `String.prototype.split`
  with that pattern. `IsSeparator` is a declarative reading of the pattern.
  `MatchAt` and `FirstMatch` are proved against it. `SplitSep` is proved to
  cut at stretches that satisfy it, at the leftmost match each time, and to
  give the line back when the pieces are glued together again.
- `Deck`: `buildDeck`, with the random `uid()` values passed in as a sequence.
- `Shuffling`: the Fisher–Yates `shuffle`, with the random draws passed in as
  a sequence, and the pool as a prefix of a shuffled deck.
- `Rounds`: the state the React hooks hold, made explicit as one immutable
  `Round` value. Each event is a pure transition:
  - selecting a card;
  - the effect that evaluates a complete pair;
  - a timer tick;
  - resetting the same round;
  - starting a new pool.
- `Clock`: `secToClock`, with JavaScript's `Math.floor(s / 60)` and truncating
  `s % 60` written out.

Two quirks of the code are kept on purpose, because they are the code's
behaviour:

- `matched` is a set of match keys, not of card identifiers.
- The finish test compares the number of matched keys with the number of
  cards.

With two cards of one key in a pool, one correct match disables both. The
round can then never finish (`Rounds.DuplicateKeysNeverFinish`,
`Rounds.ExampleDuplicateKey`).

Some behaviour of the code is easy to misread; the model states it as the
code has it:

- The setting `immediateFeedback` is stored and shown as a checkbox. It is
  never read, so it gates nothing. The model carries it in `Settings`, and no
  transition looks at it.
- A line is split at every separator, not only at the first one. The pieces
  after the first are re-joined with single spaces. `a: b, c` therefore gives
  the definition `b c`.
- Once a definition card is matched, its button is disabled. Clicking it again
  does not produce a wrong match. In the two-pair example, the sequence
  "polite", "shows good manners", "shy", "shows good manners" leaves "shy"
  selected with no mistake counted (`Rounds.ExampleClickOnMatchedCard`).
  Finishing the round then scores 100 + 110 = 210 with a streak of 2
  (`Rounds.ExampleCleanGame`), not 200.
- The round size is kept at 4 or more only by the slider's `min`; the code
  itself does not enforce it. `Shuffling.Pool` accepts any integer, and a
  negative size counts back from the end as `slice` does.
- A key `term + "::" + def` does not always tell pairs apart: "a::b"/"c" and
  "a"/"b::c" share one (`Deck.KeyCollision`). Keys are injective when the
  terms have no colon (`Deck.KeyInjective`), and likewise when the
  definitions have none (`Deck.KeyInjectiveDefs`).

Randomness is a parameter throughout:

- Card identifiers are a sequence of strings, one per pair.
- Each shuffle takes a sequence of draws. The k-th draw is the index swapped
  with position n-1-k, and it lies in [0, n-1-k] (`Shuffling.ValidDraws`).

## Model

| member | source | states |
|---|---|---|
| Text.Trim | matching-canva-app-v3/src/App.jsx:32 | the result of `trim()` has no white space at either end and is no longer than its input |
| Text.TrimIsInfix | matching-canva-app-v3/src/App.jsx:32 | what `trim()` keeps is a contiguous stretch of the input with only white space before and after it |
| Text.TrimIdempotent | matching-canva-app-v3/src/App.jsx:32 | trimming a trimmed piece again changes nothing |
| Text.TrimEmptyIffAllSpace | matching-canva-app-v3/src/App.jsx:31-33 | a line trims to the empty string, and is dropped by `filter(Boolean)`, exactly when it is all white space |
| Text.Lines | matching-canva-app-v3/src/App.jsx:30-31 | `split(/\n+/)` yields at least one piece and no piece contains a newline |
| Text.JoinSpace | matching-canva-app-v3/src/App.jsx:39 | `join(" ")` of no pieces is empty and of one piece is that piece; the length is the pieces' lengths plus one per gap, with the first piece at the front and the last at the back |
| Text.JoinSpaceInterleave | matching-canva-app-v3/src/App.jsx:39 | `join(" ")` is the pieces interleaved with single spaces, so every middle piece sits between two spaces |
| Text.LinesCons | matching-canva-app-v3/src/App.jsx:30-31 | a first line ended by a newline is split off whole and a run of further newlines adds no piece |
| PairParser.MatchAt | matching-canva-app-v3/src/App.jsx:36 | the matcher at one position finds a separator exactly when the pattern matches there, and takes the longest match |
| PairParser.FirstMatch | matching-canva-app-v3/src/App.jsx:36 | the leftmost position where the separator pattern matches, with nothing matching earlier |
| PairParser.SplitSep | matching-canva-app-v3/src/App.jsx:36 | splitting gives one piece, the line itself, exactly when the line holds no separator, and no piece holds a separator |
| PairParser.SplitSepRebuild | matching-canva-app-v3/src/App.jsx:36 | the pieces glued back together with the stretches cut out give the line again; every stretch matches the pattern, and no piece after a cut starts with white space |
| PairParser.SplitSepLeftmost | matching-canva-app-v3/src/App.jsx:36 | each cut is at the leftmost match: no stretch that matches the pattern starts inside a piece, even one that runs on into the cut after it |
| PairParser.ParseLine | matching-canva-app-v3/src/App.jsx:36-40 | a line yields a pair only if it contains a separator, and a yielded term and definition are non-empty and trimmed |
| PairParser.ParseLinePieces | matching-canva-app-v3/src/App.jsx:36-40 | a line yields a pair exactly when the pattern matches, the text before the leftmost match trims to something and the rest, split again and re-joined with spaces, trims to something; those two are the term and the definition |
| PairParser.TrimmedLines | matching-canva-app-v3/src/App.jsx:30-33 | every line kept is non-empty and trimmed |
| PairParser.TrimmedLinesSingle | matching-canva-app-v3/src/App.jsx:30-33 | a text without newlines keeps its trimmed self, unless that is empty |
| PairParser.TrimmedLinesCons | matching-canva-app-v3/src/App.jsx:30-33 | the lines kept from a text are those of its first line followed by those of the rest, in order |
| PairParser.NonEmptyTrimmedKeeps | matching-canva-app-v3/src/App.jsx:32-33 | every line that does not trim to nothing is kept, trimmed |
| PairParser.NonEmptyTrimmedFrom | matching-canva-app-v3/src/App.jsx:32-33 | everything kept is some line of the text, trimmed |
| PairParser.ParsePairs | matching-canva-app-v3/src/App.jsx:29-44 | at most one pair per non-empty trimmed line, each with a non-empty trimmed term and definition; every kept line that parses contributes its pair, and every pair comes from a kept line |
| PairParser.ParsePairsCons | matching-canva-app-v3/src/App.jsx:34-43 | pairs come out in line order: a text's pairs are its first line's pairs followed by the rest's |
| PairParser.ParsePairsOneLine | matching-canva-app-v3/src/App.jsx:29-44 | a one-line text gives the pair its trimmed line parses to, or nothing |
| PairParser.SimpleLineParses | matching-canva-app-v3/src/App.jsx:259 | a line `A <sep> B` written with one of the four advertised separators gives exactly the pair (A, B) when A and B are trimmed and non-empty, B holds no separator, and A holds none even with a space after it (so A may not end in a dash, colon or comma) |
| PairParser.SimpleTextParses | matching-canva-app-v3/src/App.jsx:29-44 | a one-line text `A <sep> B` with one of the advertised separators gives exactly the one pair (A, B) under the same conditions on A and B, when neither holds a newline |
| PairParser.NoSeparatorWhenPivotsFollowed | matching-canva-app-v3/src/App.jsx:36 | a text whose every dash, colon and comma is followed by a visible character contains no separator |
| PairParser.SampleLineParses | matching-canva-app-v3/src/App.jsx:6-26 | a sample-style `term — definition` line gives exactly that pair when inner dashes, colons and commas are followed by visible characters |
| PairParser.PoliteExample | matching-canva-app-v3/src/App.jsx:7 | the first sample line gives ("polite", "shows good manners and respect") |
| PairParser.HardWorkingExample | matching-canva-app-v3/src/App.jsx:11 | "hard-working — puts in a lot of effort" is split at the em dash only, not at the inner hyphen |
| Deck.MakeKey | matching-canva-app-v3/src/App.jsx:51 | the key is the term, then `::`, then the definition |
| Options.KeepSome | matching-canva-app-v3/src/App.jsx:37-40 | every pair kept is the present result of some line, and every present result is kept |
| Options.KeepSomeAppend | matching-canva-app-v3/src/App.jsx:34-43 | results come out in input order: keeping over two lists in a row is keeping over each |
| Deck.BuildDeck | matching-canva-app-v3/src/App.jsx:50-52 | one card per pair, each carrying the key of its own term and definition |
| Deck.BuildDeckRoundTrip | matching-canva-app-v3/src/App.jsx:50-52 | reading term, definition and identifier back off the deck gives the pairs and identifiers in their original order |
| Deck.EqualPairsEqualKeys | matching-canva-app-v3/src/App.jsx:51 | two cards of equal pairs share a key whatever their identifiers |
| Deck.KeyInjective | matching-canva-app-v3/src/App.jsx:51 | for colon-free terms, equal keys hold exactly when terms and definitions are equal |
| Deck.KeyInjectiveDefs | matching-canva-app-v3/src/App.jsx:51 | for colon-free definitions, equal keys hold exactly when terms and definitions are equal |
| Deck.KeyCollision | matching-canva-app-v3/src/App.jsx:51 | two different pairs can share a key when terms or definitions contain `::` |
| Deck.KeysOfSize | matching-canva-app-v3/src/App.jsx:175 | a pool has at most as many distinct keys as cards, and exactly as many precisely when no key repeats |
| Shuffling.Swap | matching-canva-app-v3/src/App.jsx:58 | the destructuring swap exchanges two positions and leaves the others alone |
| Shuffling.SwapDown | matching-canva-app-v3/src/App.jsx:56-59 | the loop from index i down never touches positions above i, and position i ends up holding the element at the first draw |
| Shuffling.SwapDownPermutes | matching-canva-app-v3/src/App.jsx:56-59 | the loop only reorders: one swap at a time, the multiset of elements is kept |
| Shuffling.Shuffle | matching-canva-app-v3/src/App.jsx:54-61 | the result is a permutation of the input, inputs of length at most one come back unchanged, and the last position holds the element at the first draw |
| Shuffling.ShuffleIdentity | matching-canva-app-v3/src/App.jsx:54-61 | when every draw is its own index, the shuffle returns the input unchanged |
| Shuffling.Pool | matching-canva-app-v3/src/App.jsx:116-118 | the pool is a prefix of a shuffled deck, of length `min(roundSize, deck length)` for a non-negative size, its cards drawn from the deck |
| Shuffling.PoolWholeDeck | matching-canva-app-v3/src/App.jsx:178 | a round size of at least the deck's takes every card of the deck |
| Rounds.StartRound | matching-canva-app-v3/src/App.jsx:131-144 | a new pool starts a valid, unfinished round with nothing matched or selected, zero counters, no message and the full time |
| Rounds.NewRound | matching-canva-app-v3/src/App.jsx:116-141 | sampling and starting a round gives a valid round over cards of the deck, of the requested size when the deck allows |
| Rounds.ResetSameRound | matching-canva-app-v3/src/App.jsx:181-192 | the reset keeps the pool, empties matches and selections, zeroes score, mistakes and streak, clears the message and restores the time |
| Rounds.ResetIsRestart | matching-canva-app-v3/src/App.jsx:181-192 | resetting the same round is starting a new round on the same pool |
| Rounds.Select | matching-canva-app-v3/src/App.jsx:323-329 | a matched card changes nothing; clicking the selected card clears that side; any other card becomes that side's selection; the other side is untouched |
| Rounds.SelectToggles | matching-canva-app-v3/src/App.jsx:324-329 | clicking a free card twice selects it and then restores the round |
| Rounds.TryMatch | matching-canva-app-v3/src/App.jsx:153-165 | equal keys add the key, 100 plus ten per streak point and one to the streak, with the Correct message; different keys add a mistake, reset the streak and set Try again; nothing else changes |
| Rounds.Evaluate | matching-canva-app-v3/src/App.jsx:153-173 | a complete pair is evaluated and both selections cleared; equal keys add the key, 100 plus ten per streak point, and one to the streak; different keys add a mistake and reset the streak |
| Rounds.Click | matching-canva-app-v3/src/App.jsx:167-173 | a click never changes the pool, the columns or the time, leaves at most one side selected, only adds to the matched keys (at most one) and to the mistakes (at most one), and a click on a matched card in a round with at most one selection changes nothing |
| Rounds.Tick | matching-canva-app-v3/src/App.jsx:145-151 | a tick takes one second off exactly when the timer is on, the round open and time left; time never drops below zero |
| Rounds.TicksCountDown | matching-canva-app-v3/src/App.jsx:145-151 | n ticks in an open round take n seconds off, stopping at zero |
| Rounds.TickPreservesValid | matching-canva-app-v3/src/App.jsx:145-151 | ticking keeps every invariant of the round |
| Rounds.ClickPreservesValid | matching-canva-app-v3/src/App.jsx:167-173 | a click keeps the invariants: at most one side selected, only pool keys matched, streak at most the matches, score between 100 per match and the all-streak maximum |
| Rounds.PlayPreservesValid | matching-canva-app-v3/src/App.jsx:323-329 | any sequence of clicks on the board keeps the round valid and never changes the pool or the columns |
| Rounds.Finished | matching-canva-app-v3/src/App.jsx:175 | in a valid round `finished` holds exactly when the pool is non-empty, its keys are distinct and all of them are matched |
| Rounds.DuplicateKeysNeverFinish | matching-canva-app-v3/src/App.jsx:175 | a pool with a repeated key is never finished |
| Rounds.AllKeysMatchedIsStuck | matching-canva-app-v3/src/App.jsx:328 | once every key of the pool is matched, every card is disabled and no click changes the round |
| Rounds.ExampleCleanGame | matching-canva-app-v3/src/App.jsx:153-159 | two correct matches in a row finish the two-pair round with score 210, streak 2 and no mistakes |
| Rounds.ExampleWithMistake | matching-canva-app-v3/src/App.jsx:160-164 | a wrong pair counts a mistake, clears the streak and both selections, and the next match earns no bonus |
| Rounds.ExampleClickOnMatchedCard | matching-canva-app-v3/src/App.jsx:323-329 | a click on a matched card is ignored, and a second click on the selected card deselects it |
| Rounds.ExampleDuplicateKey | matching-canva-app-v3/src/App.jsx:156 | one correct match of two same-key cards matches every key, yet the round is not finished and no click changes it |
| Clock.NatToString | matching-canva-app-v3/src/App.jsx:352-353 | `toString()` of a natural number gives decimal digits, one exactly for numbers below ten and no leading zero otherwise |
| Clock.IntToString | matching-canva-app-v3/src/App.jsx:352-353 | a non-negative number prints as decimal digits that read back as the number; a negative one as a minus sign followed by digits that read back as its absolute value |
| Clock.PadStart2 | matching-canva-app-v3/src/App.jsx:352-353 | `padStart(2, "0")` gives length two for shorter strings and leaves longer ones at their length |
| Clock.PadStartShape | matching-canva-app-v3/src/App.jsx:352-353 | `padStart(2, "0")` only puts zeros in front and keeps the original as a suffix |
| Clock.PaddedValue | matching-canva-app-v3/src/App.jsx:352-353 | a padded number is all digits and reads back as that number |
| Clock.FloorDiv60 | matching-canva-app-v3/src/App.jsx:352 | the minutes are the largest q with 60q at most s |
| Clock.TruncRem60 | matching-canva-app-v3/src/App.jsx:353 | the seconds differ from s by a multiple of 60, lie strictly between -60 and 60, and have the sign of s |
| Clock.NatToStringValue | matching-canva-app-v3/src/App.jsx:352-353 | the decimal digits of a number read back as that number |
| Clock.SecToClock | matching-canva-app-v3/src/App.jsx:351-355 | the clock has at least five characters: two padded halves and the colon |
| Clock.ClockRoundTrip | matching-canva-app-v3/src/App.jsx:351-355 | for s of at least zero, reading the clock back (digits, a colon, two digits of seconds below 60) gives s |
| Clock.ClockExampleShort | matching-canva-app-v3/src/App.jsx:351-355 | 185 seconds show as 03:05 |
| Clock.ClockExampleLong | matching-canva-app-v3/src/App.jsx:351-355 | 6000 seconds show as 100:00: minutes are not cut to two digits |
| Clock.ClockExampleNegative | matching-canva-app-v3/src/App.jsx:351-355 | -5 seconds show as -1:-5, both halves signed |

## Left out

- React scheduling (`useState`, `useEffect`, `useMemo`, re-renders) is replaced
  by explicit transitions. `Rounds.Click` is a selection followed at once by
  the evaluation effect. `Rounds.StartRound` combines the pool effect with the
  timer reset of line 144.
- Browser I/O is not modelled: `localStorage`, `JSON.parse` of saved settings,
  the URL hash and its listener, and the clipboard share link.
- `Math.random` is not modelled. Identifiers and shuffle draws are parameters,
  so nothing is said about their distribution or uniqueness.
- `setTimeout` timing is not modelled. A tick is one discrete event
  (`Rounds.Tick`), and the time a cleared timeout would have waited is not
  represented.
- JSX, CSS, the `Stat` panel and the message strings are not modelled.
  `Rounds.Message` only records which message was set, and the "Saved
  locally" message is not modelled.
- Settings input is not modelled: `parseInt`, `NaN`, the slider bounds and
  the `Math.max(10, …)` on seconds are DOM input handling. Settings reach
  the model as integers.
- `.map((p) => ({ ...p }))` copies each card object. Cards are values here,
  so the copy is the identity.
- Rounds.SetTimerSec: line 144 on a change of `timerSec` is modelled as a
  transition that only replaces the time left, so it has no contract of its own.
- JavaScript numbers are IEEE doubles; the model uses unbounded integers.
  `Clock.NatToString`, `Clock.IntToString` and `Clock.SecToClock` print every
  integer in plain decimal, while JavaScript switches to exponent form from
  1e21. `score`, `mistakes`, `streak` and `timeLeft` stop being exact past
  2^53. Neither is reachable in a classroom round.
- Clock.SecToClock: its own contract gives only the length; what the string
  means is stated by `Clock.ClockRoundTrip` and the three examples.
- Strings are sequences of Unicode scalar values, not UTF-16 code units.
  White space is the ECMAScript WhiteSpace and LineTerminator set.
- Shuffling.Shuffle: permutation and the swap discipline are proved; a
  uniform distribution over permutations cannot be stated without a model of
  randomness.
- Shuffling.Pool: the number of cards is stated for every non-negative round
  size and for negative sizes; `roundSize` values that are not integers
  (`NaN` from a failed parse) are outside the model.

=== FILE: clock.dfy ===
/** `secToClock`: a number of seconds shown as minutes and seconds, each
    padded to two characters, with JavaScript's integer arithmetic written out:
    `Math.floor(s / 60)` rounds down and `s % 60` keeps the sign of `s`. */
module Clock {
  import opened Options

  predicate IsDigit(c: char) {
    '0' <= c <= '9'
  }

  predicate AllDigits(s: string) {
    forall i :: 0 <= i < |s| ==> IsDigit(s[i])
  }

  function DigitChar(d: nat): (c: char)
    requires d < 10
    ensures IsDigit(c) && c as int - '0' as int == d
  {
    ('0' as int + d) as char
  }

  /** The value of a string of decimal digits, leading zeros allowed. */
  function DecimalValue(s: string): nat
    requires AllDigits(s)
  {
    if s == [] then 0
    else DecimalValue(s[..|s| - 1]) * 10 + (s[|s| - 1] as int - '0' as int)
  }

  /** `n.toString()` for a natural number: its decimal digits, most significant
      first, without leading zeros. */
  function NatToString(n: nat): (r: string)
    ensures |r| >= 1 && AllDigits(r)
    ensures |r| == 1 <==> n < 10
    ensures |r| > 1 ==> r[0] != '0'
  {
    if n < 10 then [DigitChar(n)]
    else NatToString(n / 10) + [DigitChar(n % 10)]
  }

  /** `i.toString()` for an integer: a minus sign before the digits of a
      negative number. */
  function IntToString(i: int): (r: string)
    ensures i >= 0 ==> AllDigits(r) && DecimalValue(r) == i
    ensures i < 0 ==> |r| >= 2 && r[0] == '-' && AllDigits(r[1..]) && DecimalValue(r[1..]) == -i
  {
    if i < 0 then
      NatToStringValue(-i);
      var r := "-" + NatToString(-i);
      assert r[1..] == NatToString(-i);
      r
    else
      NatToStringValue(i);
      NatToString(i)
  }

  /** `s.padStart(2, "0")`: zeros in front up to length two; longer strings
      are left alone. */
  function PadStart2(s: string): (r: string)
    ensures |r| == (if |s| < 2 then 2 else |s|)
  {
    if |s| == 0 then "00"
    else if |s| == 1 then "0" + s
    else s
  }

  /** Padding only puts zeros in front: `s` is the tail of the result. */
  lemma PadStartShape(s: string)
    ensures var r := PadStart2(s);
            && r[|r| - |s|..] == s
            && forall i :: 0 <= i < |r| - |s| ==> r[i] == '0'
  {
  }

  /** `Math.floor(s / 60)`: the largest `q` with `60 * q <= s`. */
  function FloorDiv60(s: int): (q: int)
    ensures 60 * q <= s < 60 * q + 60
  {
    s / 60
  }

  /** JavaScript's `s % 60`: the remainder of division truncated toward zero,
      which has the sign of `s`. */
  function TruncRem60(s: int): (r: int)
    ensures -60 < r < 60 && (s - r) % 60 == 0
    ensures s >= 0 ==> r >= 0
    ensures s <= 0 ==> r <= 0
  {
    if s >= 0 then s % 60 else -((-s) % 60)
  }

  /** `secToClock(s)`: minutes and seconds joined by a colon. */
  function SecToClock(s: int): (r: string)
    ensures |r| >= 5
  {
    PadStart2(IntToString(FloorDiv60(s))) + ":" + PadStart2(IntToString(TruncRem60(s)))
  }

  /** Leading zeros do not change a decimal value. */
  lemma {:induction false} LeadingZeros(z: string, s: string)
    requires AllDigits(s) && forall i :: 0 <= i < |z| ==> z[i] == '0'
    ensures AllDigits(z + s) && DecimalValue(z + s) == DecimalValue(s)
    decreases |s|
  {
    if s == [] {
      assert z + s == z;
      AllZeros(z);
    } else {
      var t := s[..|s| - 1];
      LeadingZeros(z, t);
      assert (z + s)[..|z + s| - 1] == z + t;
    }
  }

  lemma {:induction false} AllZeros(z: string)
    requires forall i :: 0 <= i < |z| ==> z[i] == '0'
    ensures AllDigits(z) && DecimalValue(z) == 0
    decreases |z|
  {
    if z != [] {
      AllZeros(z[..|z| - 1]);
    }
  }

  /** Reading the digits of `n` back gives `n`. */
  lemma {:induction false} NatToStringValue(n: nat)
    ensures DecimalValue(NatToString(n)) == n
  {
    if n >= 10 {
      NatToStringValue(n / 10);
      var r := NatToString(n);
      assert r[..|r| - 1] == NatToString(n / 10);
    }
  }

  /** A padded natural number reads back as itself. */
  lemma PaddedValue(n: nat)
    ensures AllDigits(PadStart2(NatToString(n)))
    ensures DecimalValue(PadStart2(NatToString(n))) == n
  {
    var s := NatToString(n);
    var r := PadStart2(s);
    PadStartShape(s);
    LeadingZeros(r[..|r| - |s|], s);
    assert r == r[..|r| - |s|] + s;
    NatToStringValue(n);
  }

  /** Reads a clock back: minutes, a colon, and two digits of seconds below
      60, as a number of seconds. */
  function ReadClock(r: string): Option<nat> {
    if |r| >= 4 && r[|r| - 3] == ':' && AllDigits(r[..|r| - 3]) && AllDigits(r[|r| - 2..])
       && DecimalValue(r[|r| - 2..]) < 60
    then Some(DecimalValue(r[..|r| - 3]) * 60 + DecimalValue(r[|r| - 2..]))
    else None
  }

  /** For a non-negative number of seconds the clock reads back as that number:
      the colon sits before the last two characters, the seconds there are
      below 60, and minutes times 60 plus seconds is `s`. */
  lemma ClockRoundTrip(s: nat)
    ensures ReadClock(SecToClock(s)) == Some(s)
  {
    var q, rem := s / 60, s % 60;
    NonNegativeClock(s);
    ReadPadded(q, rem);
    DivMod60(s, q, rem);
  }

  /** Padded minutes, a colon and padded seconds read back as their total. */
  lemma ReadPadded(q: nat, rem: nat)
    requires rem < 60
    ensures ReadClock(PadStart2(NatToString(q)) + ":" + PadStart2(NatToString(rem))) == Some(q * 60 + rem)
  {
    var m, sec := PadStart2(NatToString(q)), PadStart2(NatToString(rem));
    PaddedHalves(q, rem);
    ReadJoined(m, sec, q, rem);
  }

  /** For a non-negative count both halves are plain natural numbers. */
  lemma NonNegativeClock(s: nat)
    ensures SecToClock(s) == PadStart2(NatToString(s / 60)) + ":" + PadStart2(NatToString(s % 60))
  {
  }

  /** Padded minutes and seconds are digit strings holding their values, the
      seconds exactly two characters long. */
  lemma PaddedHalves(q: nat, rem: nat)
    requires rem < 60
    ensures var m := PadStart2(NatToString(q));
            var sec := PadStart2(NatToString(rem));
            && |m| >= 1 && |sec| == 2 && AllDigits(m) && AllDigits(sec)
            && DecimalValue(m) == q && DecimalValue(sec) == rem
  {
    TwoDigits(rem);
    PaddedValue(q);
    PaddedValue(rem);
  }

  /** Reading `m + ":" + sec` back when both halves are digits. */
  lemma ReadJoined(m: string, sec: string, q: nat, rem: nat)
    requires |m| >= 1 && |sec| == 2 && AllDigits(m) && AllDigits(sec)
    requires DecimalValue(m) == q && DecimalValue(sec) == rem && rem < 60
    ensures ReadClock(m + ":" + sec) == Some(q * 60 + rem)
  {
    ColonSplit(m, sec);
  }

  lemma DivMod60(s: nat, q: nat, rem: nat)
    requires q == s / 60 && rem == s % 60
    ensures q * 60 + rem == s && rem < 60
  {
  }

  /** A number below 100 has at most two digits. */
  lemma TwoDigits(n: nat)
    requires n < 100
    ensures |NatToString(n)| <= 2
  {
    if n >= 10 {
      assert NatToString(n) == NatToString(n / 10) + [DigitChar(n % 10)];
    }
  }

  /** The halves of `m + ":" + sec` when `sec` has two characters. */
  lemma ColonSplit(m: string, sec: string)
    requires |sec| == 2
    ensures var r := m + ":" + sec;
            && r[|r| - 3] == ':' && r[..|r| - 3] == m && r[|r| - 2..] == sec
  {
  }

  /** Three minutes and five seconds. */
  lemma ClockExampleShort()
    ensures SecToClock(185) == "03:05"
  {
    assert NatToString(3) == "3" && NatToString(5) == "5";
  }

  /** Minutes beyond 99 keep all their digits. */
  lemma ClockExampleLong()
    ensures SecToClock(6000) == "100:00"
  {
    var m := FloorDiv60(6000);
    var r := TruncRem60(6000);
    assert m == 100 && r == 0;
    var ms := NatToString(m);
    assert ms == NatToString(10) + [DigitChar(0)];
    assert NatToString(10) == NatToString(1) + [DigitChar(0)];
    assert ms == "100";
    assert PadStart2(IntToString(r)) == "00";
  }

  /** A negative count shows a minus sign in both halves. */
  lemma ClockExampleNegative()
    ensures SecToClock(-5) == "-1:-5"
  {
    var s := -5;
    var m, r := FloorDiv60(s), TruncRem60(s);
    assert m == -1 && r == -5;
    var ms, rs := IntToString(m), IntToString(r);
    assert ms == "-1" && rs == "-5";
    assert PadStart2(ms) == ms && PadStart2(rs) == rs;
  }
}

=== FILE: deck.dfy ===
/** `buildDeck`: one card per parsed pair, with an identity and a match key. */
module Deck {
  import opened PairParser

  /** A card of the game. `id` tells two cards apart on screen; `key` decides
      whether a term and a definition belong together. */
  datatype Card = Card(id: string, term: string, def: string, key: string)

  /** The match key `term + "::" + def`. */
  function MakeKey(term: string, def: string): (k: string)
    ensures |k| == |term| + |def| + 2
    ensures k[..|term|] == term && k[|term|..|term| + 2] == "::" && k[|term| + 2..] == def
  {
    term + "::" + def
  }

  /** `buildDeck(pairs)`, with the random identifiers `uid()` would draw
      supplied as `ids`, one per pair. */
  function BuildDeck(pairs: seq<Pair>, ids: seq<string>): (deck: seq<Card>)
    requires |ids| == |pairs|
    ensures |deck| == |pairs|
    ensures forall i :: 0 <= i < |deck| ==> HasOwnKey(deck[i])
  {
    seq(|pairs|, i requires 0 <= i < |pairs| =>
      Card(ids[i], pairs[i].term, pairs[i].def, MakeKey(pairs[i].term, pairs[i].def)))
  }

  /** The key of the card is derived from its own term and definition. */
  predicate HasOwnKey(c: Card) {
    c.key == MakeKey(c.term, c.def)
  }

  /** The pair a card shows. */
  function PairOf(c: Card): Pair {
    Pair(c.term, c.def)
  }

  /** Building a deck keeps the pairs in order and the identifiers as given:
      projecting the deck back gives the inputs. */
  lemma BuildDeckRoundTrip(pairs: seq<Pair>, ids: seq<string>)
    requires |ids| == |pairs|
    ensures var deck := BuildDeck(pairs, ids);
            && (seq(|deck|, i requires 0 <= i < |deck| => PairOf(deck[i]))) == pairs
            && (seq(|deck|, i requires 0 <= i < |deck| => deck[i].id)) == ids
  {
  }

  /** Two cards built from equal pairs have equal keys whatever their identifiers. */
  lemma EqualPairsEqualKeys(pairs: seq<Pair>, ids: seq<string>, i: nat, j: nat)
    requires |ids| == |pairs| && i < |pairs| && j < |pairs| && pairs[i] == pairs[j]
    ensures BuildDeck(pairs, ids)[i].key == BuildDeck(pairs, ids)[j].key
  {
  }

  /** Keys tell pairs apart when terms have no colon: the first colon of the
      key then ends the term. */
  lemma KeyInjective(t1: string, d1: string, t2: string, d2: string)
    requires ':' !in t1 && ':' !in t2
    ensures MakeKey(t1, d1) == MakeKey(t2, d2) <==> t1 == t2 && d1 == d2
  {
    var k1, k2 := MakeKey(t1, d1), MakeKey(t2, d2);
    if k1 == k2 {
      ColonEndsTerm(t1, d1, t2, d2);
      ColonEndsTerm(t2, d2, t1, d1);
      assert t1 == k1[..|t1|] == k2[..|t2|] == t2;
      assert d1 == k1[|t1| + 2..] == k2[|t2| + 2..] == d2;
    }
  }

  /** A shorter colon-free term cannot be a prefix of the key of a longer one. */
  lemma ColonEndsTerm(t1: string, d1: string, t2: string, d2: string)
    requires ':' !in t2
    ensures |t1| < |t2| ==> MakeKey(t1, d1) != MakeKey(t2, d2)
  {
    if |t1| < |t2| {
      assert MakeKey(t1, d1)[|t1|] == ':';
      assert MakeKey(t2, d2)[|t1|] == t2[|t1|] && t2[|t1|] in t2;
    }
  }

  /** Keys tell pairs apart as well when definitions have no colon: the last
      colon of the key then starts the definition. */
  lemma KeyInjectiveDefs(t1: string, d1: string, t2: string, d2: string)
    requires ':' !in d1 && ':' !in d2
    ensures MakeKey(t1, d1) == MakeKey(t2, d2) <==> t1 == t2 && d1 == d2
  {
    var k1, k2 := MakeKey(t1, d1), MakeKey(t2, d2);
    if k1 == k2 {
      ColonStartsDef(t1, d1, t2, d2);
      ColonStartsDef(t2, d2, t1, d1);
      assert |t1| == |t2|;
      assert t1 == k1[..|t1|] == k2[..|t2|] == t2;
      assert d1 == k1[|t1| + 2..] == k2[|t2| + 2..] == d2;
    }
  }

  /** A shorter definition cannot end the key of a longer colon-free one. */
  lemma ColonStartsDef(t1: string, d1: string, t2: string, d2: string)
    requires ':' !in d2
    ensures |d1| < |d2| ==> MakeKey(t1, d1) != MakeKey(t2, d2)
  {
    var k1, k2 := MakeKey(t1, d1), MakeKey(t2, d2);
    if |d1| < |d2| && |k1| == |k2| {
      var n := |k1| - |d1| - 1;
      assert k1[n] == ':';
      assert k2[n] == d2[|d2| - |d1| - 1] && d2[|d2| - |d1| - 1] in d2;
    }
  }

  /** With colons inside terms or definitions, different pairs can share a key:
      "a::b" / "c" and "a" / "b::c" both give "a::b::c". */
  lemma KeyCollision()
    ensures Pair("a::b", "c") != Pair("a", "b::c")
    ensures MakeKey("a::b", "c") == MakeKey("a", "b::c")
  {
  }

  /** The keys present among the cards. */
  function KeysOf(cards: seq<Card>): set<string> {
    set c | c in cards :: c.key
  }

  /** No two positions hold cards with the same key. */
  predicate DistinctKeys(cards: seq<Card>) {
    forall i, j :: 0 <= i < j < |cards| ==> cards[i].key != cards[j].key
  }

  /** There are at most as many keys as cards, and exactly as many precisely
      when no key repeats. */
  lemma {:induction false} KeysOfSize(cards: seq<Card>)
    ensures |KeysOf(cards)| <= |cards|
    ensures |KeysOf(cards)| == |cards| <==> DistinctKeys(cards)
    decreases |cards|
  {
    if cards != [] {
      var rest := cards[1..];
      KeysOfSize(rest);
      assert KeysOf(cards) == {cards[0].key} + KeysOf(rest) by {
        assert forall c :: c in cards <==> c == cards[0] || c in rest;
      }
      if cards[0].key in KeysOf(rest) {
        var c :| c in rest && c.key == cards[0].key;
        var j :| 0 <= j < |rest| && rest[j] == c;
        assert cards[j + 1].key == cards[0].key;
        assert !DistinctKeys(cards);
      } else {
        assert DistinctKeys(cards) <==> DistinctKeys(rest) by {
          if DistinctKeys(rest) {
            forall i, j | 0 <= i < j < |cards|
              ensures cards[i].key != cards[j].key
            {
              if i == 0 {
                assert cards[j] in rest;
              } else {
                assert cards[i] == rest[i - 1] && cards[j] == rest[j - 1];
              }
            }
          }
          if DistinctKeys(cards) {
            forall i, j | 0 <= i < j < |rest|
              ensures rest[i].key != rest[j].key
            {
              assert rest[i] == cards[i + 1] && rest[j] == cards[j + 1];
            }
          }
        }
      }
    }
  }
}

=== FILE: options.dfy ===
/** The optional value the component uses wherever JavaScript has `null`
    (an empty selection, a line that yields no pair, no separator found). */
module Options {

  datatype Option<+T> = None | Some(value: T)

  /** The present results of `f` over `xs`, in the order of `xs`: a `map`
      followed by a filter that drops the absent ones. */
  function KeepSome<A, B>(f: A -> Option<B>, xs: seq<A>): (ys: seq<B>)
    ensures |ys| <= |xs|
    ensures forall y :: y in ys ==> exists x :: x in xs && f(x) == Some(y)
    ensures forall i :: 0 <= i < |xs| && f(xs[i]).Some? ==> f(xs[i]).value in ys
  {
    if xs == [] then []
    else
      var rest := KeepSome(f, xs[1..]);
      assert forall i :: 1 <= i < |xs| ==> xs[i] == xs[1..][i - 1];
      assert forall y :: y in rest ==> exists x :: x in xs && f(x) == Some(y) by {
        forall y | y in rest
          ensures exists x :: x in xs && f(x) == Some(y)
        {
          var x :| x in xs[1..] && f(x) == Some(y);
          assert x in xs;
        }
      }
      (if f(xs[0]).Some? then [f(xs[0]).value] else []) + rest
  }

  /** Keeping the present results distributes over concatenation, so the
      results of earlier elements come first. */
  lemma {:induction false} KeepSomeAppend<A, B>(f: A -> Option<B>, xs: seq<A>, ys: seq<A>)
    ensures KeepSome(f, xs + ys) == KeepSome(f, xs) + KeepSome(f, ys)
    decreases |xs|
  {
    if xs == [] {
      assert xs + ys == ys;
    } else {
      assert (xs + ys)[0] == xs[0];
      assert (xs + ys)[1..] == xs[1..] + ys;
      KeepSomeAppend(f, xs[1..], ys);
    }
  }
}

=== FILE: pair_parser.dfy ===
/** `parsePairs`: raw multi-line text to (term, definition) pairs.

    Each non-empty trimmed line is split on every match of the regular
    expression `\s*[—:-]\s+|,\s+`; the first piece is the term and the
    remaining pieces, joined by single spaces, the definition. */
module PairParser {
  import opened Options
  import opened Text

  datatype Pair = Pair(term: string, def: string)

  /** A pair the parser may emit: both halves non-empty, no white space at their ends. */
  predicate WellFormed(p: Pair) {
    p.term != [] && p.def != [] && IsTrimmed(p.term) && IsTrimmed(p.def)
  }

  /** The character class `[—:-]` (em dash, colon, hyphen-minus). */
  predicate IsDash(c: char) {
    c == '\U{2014}' || c == ':' || c == '-'
  }

  /** Declarative reading of the pattern: `t` as a whole matches
      `\s*[—:-]\s+` or `,\s+`. */
  predicate IsSeparator(t: string) {
    || (exists k :: 0 <= k < |t| - 1 && IsDash(t[k]) && AllSpace(t[..k]) && AllSpace(t[k + 1..]))
    || (|t| >= 2 && t[0] == ',' && AllSpace(t[1..]))
  }

  /** Some stretch of `s` matches the pattern. */
  predicate ContainsSeparator(s: string) {
    exists p, e :: 0 <= p < e <= |s| && IsSeparator(s[p..e])
  }

  /** The first index at or after `i` that is not white space. */
  function SkipSpaces(s: string, i: nat): (k: nat)
    requires i <= |s|
    ensures i <= k <= |s|
    ensures AllSpace(s[i..k])
    ensures k == |s| || !IsSpace(s[k])
    decreases |s| - i
  {
    if i < |s| && IsSpace(s[i]) then SkipSpaces(s, i + 1) else i
  }

  /** The regular expression tried at exactly position `q` (as the sticky
      matcher of `String.prototype.split` does): the end of the match, if any.
      `\s*` never needs to backtrack because no character of `[—:-]` is white
      space, and the greedy trailing `\s+` makes the match as long as possible. */
  function MatchAt(s: string, q: nat): (r: Option<nat>)
    requires q <= |s|
    ensures r.Some? ==> q < r.value <= |s| && IsSeparator(s[q..r.value])
    ensures r.Some? ==> r.value == |s| || !IsSpace(s[r.value])
    ensures r.None? ==> forall e :: q < e <= |s| ==> !IsSeparator(s[q..e])
  {
    var k := SkipSpaces(s, q);
    if k + 1 < |s| && IsDash(s[k]) && IsSpace(s[k + 1]) then
      var e := SkipSpaces(s, k + 1);
      assert s[q..e][..k - q] == s[q..k];
      assert s[q..e][k - q + 1..] == s[k + 1..e];
      Some(e)
    else if q + 1 < |s| && s[q] == ',' && IsSpace(s[q + 1]) then
      var e := SkipSpaces(s, q + 1);
      assert s[q..e][1..] == s[q + 1..e];
      Some(e)
    else
      assert forall e :: q < e <= |s| ==> !IsSeparator(s[q..e]) by {
        forall e | q < e <= |s|
          ensures !IsSeparator(s[q..e])
        {
          SeparatorFound(s, q, e, k);
        }
      }
      None
  }

  /** Why the matcher is complete: a separator starting at `q` is found by
      skipping the white space at `q`. */
  lemma SeparatorFound(s: string, q: nat, e: nat, k: nat)
    requires q < e <= |s| && k == SkipSpaces(s, q)
    ensures IsSeparator(s[q..e]) ==>
              || (k + 1 < |s| && IsDash(s[k]) && IsSpace(s[k + 1]))
              || (q + 1 < |s| && s[q] == ',' && IsSpace(s[q + 1]))
  {
    var t := s[q..e];
    if k' :| 0 <= k' < |t| - 1 && IsDash(t[k']) && AllSpace(t[..k']) && AllSpace(t[k' + 1..]) {
      DashSeparatorFound(s, q, e, k, k');
    }
    if |t| >= 2 && t[0] == ',' && AllSpace(t[1..]) {
      assert t[1] == s[q + 1];
    }
  }

  /** A dash after `j` spaces is where skipping the spaces stops. */
  lemma DashSeparatorFound(s: string, q: nat, e: nat, k: nat, j: nat)
    requires q < e <= |s| && k == SkipSpaces(s, q)
    requires var t := s[q..e];
             0 <= j < |t| - 1 && IsDash(t[j]) && AllSpace(t[..j]) && AllSpace(t[j + 1..])
    ensures k == q + j && k + 1 < |s| && IsDash(s[k]) && IsSpace(s[k + 1])
  {
    var t := s[q..e];
    assert t[..j] == s[q..q + j];
    assert t[j] == s[q + j] && t[j + 1] == s[q + j + 1];
    SkipSpacesStops(s, q, q + j);
  }

  /** Skipping white space stops at the first character that is not. */
  lemma {:induction false} SkipSpacesStops(s: string, i: nat, j: nat)
    requires i <= j < |s| && AllSpace(s[i..j]) && !IsSpace(s[j])
    ensures SkipSpaces(s, i) == j
    decreases j - i
  {
    if i < j {
      assert s[i] == s[i..j][0];
      assert s[i + 1..j] == s[i..j][1..];
      SkipSpacesStops(s, i + 1, j);
    }
  }

  /** The leftmost match starting at or after `q`, as (start, end). */
  function FirstMatch(s: string, q: nat): (r: Option<(nat, nat)>)
    requires q <= |s|
    ensures r.None? ==> forall p :: q <= p < |s| ==> MatchAt(s, p).None?
    ensures r.Some? ==> q <= r.value.0 < |s| && MatchAt(s, r.value.0) == Some(r.value.1)
    ensures r.Some? ==> forall p :: q <= p < r.value.0 ==> MatchAt(s, p).None?
    decreases |s| - q
  {
    if q == |s| then None
    else if MatchAt(s, q).Some? then Some((q, MatchAt(s, q).value))
    else FirstMatch(s, q + 1)
  }

  /** `line.split(/\s*[—:-]\s+|,\s+/)`. After a match ending at `e` the search
      resumes at `e`; since the pattern has no anchors or look-behind, matching
      there is matching at the start of the suffix `s[e..]`. */
  function SplitSep(s: string): (pieces: seq<string>)
    ensures |pieces| >= 1
    ensures |pieces| == 1 <==> !ContainsSeparator(s)
    ensures |pieces| == 1 ==> pieces == [s]
    ensures forall i :: 0 <= i < |pieces| ==> !ContainsSeparator(pieces[i])
    decreases |s|
  {
    match FirstMatch(s, 0)
    case None =>
      NoMatchNoSeparator(s);
      [s]
    case Some((a, e)) =>
      assert IsSeparator(s[a..e]);
      NoMatchNoSeparatorPrefix(s, a);
      [s[..a]] + SplitSep(s[e..])
  }

  /** A string where the matcher finds nothing at any position holds no separator. */
  lemma NoMatchNoSeparator(s: string)
    requires forall p :: 0 <= p < |s| ==> MatchAt(s, p).None?
    ensures !ContainsSeparator(s)
  {
    forall p, e | 0 <= p < e <= |s|
      ensures !IsSeparator(s[p..e])
    {
      assert MatchAt(s, p).None?;
    }
  }

  /** The text before the leftmost match holds no separator either. */
  lemma NoMatchNoSeparatorPrefix(s: string, a: nat)
    requires a <= |s|
    requires forall p :: 0 <= p < a ==> MatchAt(s, p).None?
    ensures !ContainsSeparator(s[..a])
  {
    forall p, e | 0 <= p < e <= a
      ensures !IsSeparator(s[..a][p..e])
    {
      assert s[..a][p..e] == s[p..e];
      assert MatchAt(s, p).None?;
    }
  }

  /** The stretches the split cuts out: the leftmost match, then those of the
      rest of the line after it. */
  function Separators(s: string): (seps: seq<string>)
    ensures |seps| == |SplitSep(s)| - 1
    decreases |s|
  {
    match FirstMatch(s, 0)
    case None => []
    case Some((a, e)) => [s[a..e]] + Separators(s[e..])
  }

  /** The first piece of a split is a prefix of the line. */
  lemma SplitSepFirst(s: string)
    ensures SplitSep(s)[0] == s[..|SplitSep(s)[0]|]
  {
  }

  /** The split loses nothing but the separators: gluing the pieces back
      together with the stretches cut out gives the line again; every stretch
      matches the pattern, and the greedy `\s+` leaves no white space at the
      start of the piece after it. */
  lemma {:induction false} SplitSepRebuild(s: string)
    ensures Interleave(SplitSep(s), Separators(s)) == s
    ensures forall i :: 0 <= i < |Separators(s)| ==> IsSeparator(Separators(s)[i])
    ensures forall i :: 1 <= i < |SplitSep(s)| ==> SplitSep(s)[i] == [] || !IsSpace(SplitSep(s)[i][0])
    decreases |s|
  {
    if FirstMatch(s, 0).Some? {
      var (a, e) := FirstMatch(s, 0).value;
      var rest := s[e..];
      SplitSepStep(s, a, e);
      SplitSepRebuild(rest);
      SplitSepFirst(rest);
      GlueStep(s, a, e, SplitSep(s), Separators(s), SplitSep(rest), Separators(rest));
      var ps, ss := SplitSep(s), Separators(s);
      forall i | 0 <= i < |ss|
        ensures IsSeparator(ss[i])
      {
        if i > 0 {
          assert ss[i] == Separators(rest)[i - 1];
        }
      }
      forall i | 1 <= i < |ps|
        ensures ps[i] == [] || !IsSpace(ps[i][0])
      {
        assert ps[i] == SplitSep(rest)[i - 1];
        if i == 1 && ps[i] != [] {
          assert ps[i][0] == rest[0] == s[e];
        }
      }
    }
  }

  /** No separator starts inside `piece`, not even one that runs on into the
      stretch `sep` after it. */
  predicate NoEarlyMatch(piece: string, sep: string) {
    forall p, f :: 0 <= p < |piece| && p < f <= |piece| + |sep| ==> !IsSeparator((piece + sep)[p..f])
  }

  /** Each cut is at the leftmost match of what remains. */
  lemma {:induction false} SplitSepLeftmost(s: string)
    ensures forall i :: 0 <= i < |Separators(s)| ==> NoEarlyMatch(SplitSep(s)[i], Separators(s)[i])
    decreases |s|
  {
    if FirstMatch(s, 0).Some? {
      var (a, e) := FirstMatch(s, 0).value;
      var rest := s[e..];
      SplitSepStep(s, a, e);
      SplitSepLeftmost(rest);
      FirstCutLeftmost(s, a, e);
      ConsNoEarly(s[..a], s[a..e], SplitSep(rest), Separators(rest));
    }
  }

  lemma ConsNoEarly(piece: string, sep: string, ps: seq<string>, ss: seq<string>)
    requires |ss| <= |ps| && NoEarlyMatch(piece, sep)
    requires forall i :: 0 <= i < |ss| ==> NoEarlyMatch(ps[i], ss[i])
    ensures forall i :: 0 <= i < |ss| + 1 ==> NoEarlyMatch(([piece] + ps)[i], ([sep] + ss)[i])
  {
  }

  /** The first cut: nothing matches before the leftmost match. */
  lemma FirstCutLeftmost(s: string, a: nat, e: nat)
    requires FirstMatch(s, 0) == Some((a, e))
    ensures NoEarlyMatch(s[..a], s[a..e])
  {
    assert a < e <= |s|;
    forall p, f | 0 <= p < a && p < f <= a + (e - a)
      ensures !IsSeparator((s[..a] + s[a..e])[p..f])
    {
      assert (s[..a] + s[a..e])[p..f] == s[p..f];
      assert MatchAt(s, p).None?;
    }
  }

  /** One step of the split: the leftmost match cuts off the first piece and
      the rest is split on its own. */
  lemma SplitSepStep(s: string, a: nat, e: nat)
    requires FirstMatch(s, 0) == Some((a, e))
    ensures a < e <= |s| && IsSeparator(s[a..e]) && (e == |s| || !IsSpace(s[e]))
    ensures SplitSep(s) == [s[..a]] + SplitSep(s[e..])
    ensures Separators(s) == [s[a..e]] + Separators(s[e..])
  {
  }

  lemma GlueStep(s: string, a: nat, e: nat, ps: seq<string>, ss: seq<string>,
                 ps': seq<string>, ss': seq<string>)
    requires a < e <= |s| && |ps'| >= 1 && |ss'| == |ps'| - 1
    requires ps == [s[..a]] + ps' && ss == [s[a..e]] + ss'
    requires Interleave(ps', ss') == s[e..]
    ensures |ss| == |ps| - 1 && Interleave(ps, ss) == s
  {
    InterleaveCons(s[..a], s[a..e], ps', ss');
    SliceGlue(s, a, e);
  }

  lemma SliceGlue(s: string, a: nat, e: nat)
    requires a <= e <= |s|
    ensures s[..a] + s[a..e] + s[e..] == s
  {
  }

  /** Lines 36-40 of the component: a line yields a pair when the split gives
      at least two pieces and both the trimmed term and the trimmed, re-joined
      definition are non-empty. */
  function ParseLine(line: string): (r: Option<Pair>)
    ensures r.Some? ==> WellFormed(r.value)
    ensures r.Some? ==> ContainsSeparator(line)
  {
    var m := SplitSep(line);
    if |m| >= 2 then
      var term := Trim(m[0]);
      var def := Trim(JoinSpace(m[1..]));
      if term != [] && def != [] then Some(Pair(term, def)) else None
    else None
  }

  /** A line yields a pair exactly when the pattern matches somewhere, the
      text before the leftmost match trims to something and so does the rest,
      split again at every further separator and re-joined with single spaces.
      The term and definition are those two trimmed texts. */
  lemma ParseLinePieces(line: string)
    ensures ParseLine(line).Some? <==>
              && FirstMatch(line, 0).Some?
              && Trim(line[..FirstMatch(line, 0).value.0]) != []
              && Trim(JoinSpace(SplitSep(line[FirstMatch(line, 0).value.1..]))) != []
    ensures ParseLine(line).Some? ==>
              && ParseLine(line).value.term == Trim(line[..FirstMatch(line, 0).value.0])
              && ParseLine(line).value.def == Trim(JoinSpace(SplitSep(line[FirstMatch(line, 0).value.1..])))
  {
  }

  /** Lines 30-33: the lines of the text, trimmed, empty ones dropped. */
  function TrimmedLines(text: string): (ls: seq<string>)
    ensures forall i :: 0 <= i < |ls| ==> ls[i] != [] && IsTrimmed(ls[i])
  {
    NonEmptyTrimmed(Lines(text))
  }

  function NonEmptyTrimmed(lines: seq<string>): (ls: seq<string>)
    ensures |ls| <= |lines|
    ensures forall i :: 0 <= i < |ls| ==> ls[i] != [] && IsTrimmed(ls[i])
  {
    if lines == [] then []
    else
      var t := Trim(lines[0]);
      var rest := NonEmptyTrimmed(lines[1..]);
      if t == [] then rest else ConsTrimmed(t, rest); [t] + rest
  }

  lemma ConsTrimmed(t: string, rest: seq<string>)
    requires t != [] && IsTrimmed(t)
    requires forall i :: 0 <= i < |rest| ==> rest[i] != [] && IsTrimmed(rest[i])
    ensures forall i :: 0 <= i < |rest| + 1 ==> ([t] + rest)[i] != [] && IsTrimmed(([t] + rest)[i])
  {
  }

  /** Every non-blank line survives, trimmed. */
  lemma {:induction false} NonEmptyTrimmedKeeps(lines: seq<string>)
    ensures forall i :: 0 <= i < |lines| && Trim(lines[i]) != [] ==> Trim(lines[i]) in NonEmptyTrimmed(lines)
    decreases |lines|
  {
    if lines != [] {
      var tail := lines[1..];
      NonEmptyTrimmedKeeps(tail);
      var head := NonEmptyTrimmedStep(lines);
      var ls, rest := NonEmptyTrimmed(lines), NonEmptyTrimmed(tail);
      forall i | 0 <= i < |lines| && Trim(lines[i]) != []
        ensures Trim(lines[i]) in ls
      {
        if i == 0 {
          assert ls[0] == Trim(lines[0]);
        } else {
          assert lines[i] == tail[i - 1];
          assert Trim(lines[i]) in rest;
        }
      }
    }
  }

  /** The first line contributes its trimmed text, if any, before the rest. */
  lemma NonEmptyTrimmedStep(lines: seq<string>) returns (head: seq<string>)
    requires lines != []
    ensures head == (if Trim(lines[0]) == [] then [] else [Trim(lines[0])])
    ensures NonEmptyTrimmed(lines) == head + NonEmptyTrimmed(lines[1..])
  {
    head := if Trim(lines[0]) == [] then [] else [Trim(lines[0])];
  }

  /** Everything that survives is some line, trimmed. */
  lemma {:induction false} NonEmptyTrimmedFrom(lines: seq<string>)
    ensures forall t :: t in NonEmptyTrimmed(lines) ==> exists l :: l in lines && Trim(l) == t
    decreases |lines|
  {
    if lines != [] {
      var tail := lines[1..];
      NonEmptyTrimmedFrom(tail);
      var ls, rest := NonEmptyTrimmed(lines), NonEmptyTrimmed(tail);
      forall u | u in ls
        ensures exists l :: l in lines && Trim(l) == u
      {
        if u in rest {
          var l :| l in tail && Trim(l) == u;
          assert l in lines;
        } else {
          assert Trim(lines[0]) == u;
        }
      }
    }
  }

  /** Lines 29-44, `parsePairs(text)`: one parse attempt per non-empty
      trimmed line, the pairs kept in line order. */
  function ParsePairs(text: string): (ps: seq<Pair>)
    ensures |ps| <= |TrimmedLines(text)|
    ensures forall i :: 0 <= i < |ps| ==> WellFormed(ps[i])
    ensures forall p :: p in ps ==> exists l :: l in TrimmedLines(text) && ParseLine(l) == Some(p)
    ensures forall i :: 0 <= i < |TrimmedLines(text)| && ParseLine(TrimmedLines(text)[i]).Some? ==>
              ParseLine(TrimmedLines(text)[i]).value in ps
  {
    var ps := KeepSome(ParseLine, TrimmedLines(text));
    assert forall i :: 0 <= i < |ps| ==> WellFormed(ps[i]) by {
      forall i | 0 <= i < |ps|
        ensures WellFormed(ps[i])
      {
        assert ps[i] in ps;
        var l :| l in TrimmedLines(text) && ParseLine(l) == Some(ps[i]);
      }
    }
    ps
  }

  /** Newlines at the front of a text contribute no lines of their own. */
  lemma TrimmedLinesDropNewlines(text: string)
    ensures TrimmedLines(DropNewlines(text)) == TrimmedLines(text)
  {
    if text != [] && text[0] == '\n' {
      var ls := Lines(text);
      assert ls == [[]] + Lines(DropNewlines(text));
      assert Trim(ls[0]) == [];
      assert ls[1..] == Lines(DropNewlines(text));
    }
  }

  /** Trimming and dropping empty lines distributes over concatenated line lists. */
  lemma {:induction false} NonEmptyTrimmedAppend(l1: seq<string>, l2: seq<string>)
    ensures NonEmptyTrimmed(l1 + l2) == NonEmptyTrimmed(l1) + NonEmptyTrimmed(l2)
    decreases |l1|
  {
    if l1 != [] {
      assert (l1 + l2)[0] == l1[0];
      assert (l1 + l2)[1..] == l1[1..] + l2;
      var head := NonEmptyTrimmedStep(l1);
      var head' := NonEmptyTrimmedStep(l1 + l2);
      NonEmptyTrimmedAppend(l1[1..], l2);
      AppendAssoc(head, NonEmptyTrimmed(l1[1..]), NonEmptyTrimmed(l2));
    } else {
      assert l1 + l2 == l2;
    }
  }

  lemma AppendAssoc(a: seq<string>, b: seq<string>, c: seq<string>)
    ensures a + (b + c) == (a + b) + c
  {
  }

  /** A line without newlines, trimmed, is the only line kept, unless it is blank. */
  lemma TrimmedLinesSingle(l: string)
    requires '\n' !in l
    ensures TrimmedLines(l) == (if Trim(l) == [] then [] else [Trim(l)])
  {
    LinesSingle(l);
    assert Lines(l)[1..] == [];
  }

  /** The lines kept from a text are those of its first line followed by those
      of the rest. */
  lemma TrimmedLinesCons(l: string, rest: string)
    requires '\n' !in l
    ensures TrimmedLines(l + "\n" + rest) == TrimmedLines(l) + TrimmedLines(rest)
  {
    LinesCons(l, rest);
    LinesSingle(l);
    NonEmptyTrimmedAppend([l], Lines(DropNewlines(rest)));
    TrimmedLinesDropNewlines(rest);
  }

  /** `parsePairs` reads the text line by line: the pairs of a text are the
      pairs of its first line followed by the pairs of the rest. */
  lemma ParsePairsCons(l: string, rest: string)
    requires '\n' !in l
    ensures ParsePairs(l + "\n" + rest) == ParsePairs(l) + ParsePairs(rest)
  {
    TrimmedLinesCons(l, rest);
    KeepSomeAppend(ParseLine, TrimmedLines(l), TrimmedLines(rest));
  }

  /** A single line gives the pair its trimmed text parses to, or nothing. */
  lemma ParsePairsOneLine(l: string)
    requires '\n' !in l
    ensures ParsePairs(l) == (if Trim(l) != [] && ParseLine(Trim(l)).Some? then [ParseLine(Trim(l)).value] else [])
  {
    TrimmedLinesSingle(l);
  }

  /** The four separators the component's help text advertises. */
  predicate IsAdvertisedSeparator(sep: string) {
    sep == " \U{2014} " || sep == " - " || sep == ": " || sep == ", "
  }

  /** A line `A <sep> B` yields the pair (A, B) when A and B are trimmed and
      non-empty, B holds no separator, and A holds none even when followed by
      a space (so a hyphen inside a word, as in "hard-working", is fine). */
  lemma SimpleLineParses(a: string, sep: string, b: string)
    requires IsAdvertisedSeparator(sep)
    requires a != [] && IsTrimmed(a) && !ContainsSeparator(a + " ")
    requires b != [] && IsTrimmed(b) && !ContainsSeparator(b)
    ensures ParseLine(a + sep + b) == Some(Pair(a, b))
  {
    var s := a + sep + b;
    var e := |a| + |sep|;
    forall p | 0 <= p < |a|
      ensures MatchAt(s, p).None?
    {
      EarlyMatchInPrefix(a, sep, b, p);
    }
    MatchAtAdvertised(a, sep, b);
    FirstMatchIs(s, 0, |a|);
    assert s[..|a|] == a;
    assert s[e..] == b;
    assert SplitSep(s) == [a] + SplitSep(b);
    TrimTrimmed(a);
    TrimTrimmed(b);
  }

  /** A one-line text `A <sep> B` gives exactly the one pair (A, B). */
  lemma SimpleTextParses(a: string, sep: string, b: string)
    requires IsAdvertisedSeparator(sep) && '\n' !in a && '\n' !in b
    requires a != [] && IsTrimmed(a) && !ContainsSeparator(a + " ")
    requires b != [] && IsTrimmed(b) && !ContainsSeparator(b)
    ensures ParsePairs(a + sep + b) == [Pair(a, b)]
  {
    SimpleLineParses(a, sep, b);
    OneTrimmedLine(a, sep, b);
    ParsePairsOneLine(a + sep + b);
  }

  lemma OneTrimmedLine(a: string, sep: string, b: string)
    requires IsAdvertisedSeparator(sep) && '\n' !in a && '\n' !in b
    requires a != [] && IsTrimmed(a) && b != [] && IsTrimmed(b)
    ensures '\n' !in a + sep + b && Trim(a + sep + b) == a + sep + b
  {
    var s := a + sep + b;
    assert '\n' !in sep;
    assert s[0] == a[0] && s[|s| - 1] == b[|b| - 1];
    TrimTrimmed(s);
  }

  /** A match starting inside A would already be a separator in `A + " "`. */
  lemma EarlyMatchInPrefix(a: string, sep: string, b: string, p: nat)
    requires IsAdvertisedSeparator(sep)
    requires a != [] && IsTrimmed(a) && p < |a|
    ensures MatchAt(a + sep + b, p).Some? ==> ContainsSeparator(a + " ")
  {
    var s := a + sep + b;
    if MatchAt(s, p).Some? {
      assert s[..|a|] == a;
      assert s[|a|] == sep[0];
      SeparatorInPrefix(s, a + " ", |a|, p, MatchAt(s, p).value);
    }
  }

  /** If `s` and `u` agree before `n`, `s[n - 1]` is not white space and `u`
      ends with a space at `n`, a separator of `s` starting before `n` has its
      pivot before `n`, and reappears in `u`. */
  lemma SeparatorInPrefix(s: string, u: string, n: nat, p: nat, e: nat)
    requires 0 < n < |s| && |u| == n + 1 && s[..n] == u[..n] && u[n] == ' '
    requires !IsSpace(s[n - 1]) && (IsSpace(s[n]) ==> s[n] == ' ')
    requires p < n && p < e <= |s| && IsSeparator(s[p..e])
    ensures ContainsSeparator(u)
  {
    var c := SeparatorPivot(s, p, e);
    SpaceAt(s, p, c, n - 1);
    CopyPivot(s, u, n, p, c);
    SeparatorFromPivot(u, p, c);
  }

  /** The pivot at `c < n` and the white space around it carry over from `s`
      to `u`, which agrees with `s` before `n` and has a space at `n`. */
  lemma CopyPivot(s: string, u: string, n: nat, p: nat, c: nat)
    requires p <= c < n < |s| && |u| == n + 1 && s[..n] == u[..n] && u[n] == ' '
    requires AllSpace(s[p..c]) && IsSpace(s[c + 1])
    ensures u[c] == s[c] && AllSpace(u[p..c]) && IsSpace(u[c + 1])
  {
    assert u[c] == u[..n][c];
    forall i | 0 <= i < c - p
      ensures IsSpace(u[p..c][i])
    {
      assert u[p..c][i] == u[..n][p + i] == s[..n][p + i] == s[p..c][i];
    }
    if c + 1 < n {
      assert u[c + 1] == u[..n][c + 1] == s[..n][c + 1];
    }
  }

  lemma SpaceAt(s: string, p: nat, c: nat, j: nat)
    requires p <= c <= |s| && AllSpace(s[p..c]) && p <= j
    ensures j < c ==> IsSpace(s[j])
  {
    if j < c {
      assert s[p..c][j - p] == s[j];
    }
  }

  predicate IsPivot(c: char) {
    IsDash(c) || c == ','
  }

  /** Every dash, colon or comma of `s` is followed by a character that is not
      white space (as in "hard-working" or "3:30"). */
  predicate PivotsFollowed(s: string) {
    && (|s| > 0 ==> !IsPivot(s[|s| - 1]))
    && forall i :: 0 <= i < |s| - 1 ==> IsPivot(s[i]) ==> !IsSpace(s[i + 1])
  }

  /** Every separator has one pivot character (a dash, colon or comma)
      followed by white space; before a dash or colon only white space, and a
      comma comes first. */
  lemma SeparatorPivot(s: string, p: nat, e: nat) returns (c: nat)
    requires p < e <= |s| && IsSeparator(s[p..e])
    ensures p <= c < e - 1 && IsPivot(s[c]) && AllSpace(s[p..c]) && IsSpace(s[c + 1])
    ensures s[c] == ',' ==> c == p
  {
    var t := s[p..e];
    if k :| 0 <= k < |t| - 1 && IsDash(t[k]) && AllSpace(t[..k]) && AllSpace(t[k + 1..]) {
      c := p + k;
      DashPivot(s, p, e, k);
    } else {
      c := p;
      CommaPivot(s, p, e);
    }
  }

  lemma DashPivot(s: string, p: nat, e: nat, k: nat)
    requires p < e <= |s|
    requires var t := s[p..e];
             k < |t| - 1 && IsDash(t[k]) && AllSpace(t[..k]) && AllSpace(t[k + 1..])
    ensures IsDash(s[p + k]) && AllSpace(s[p..p + k]) && IsSpace(s[p + k + 1])
  {
    var t := s[p..e];
    assert t[k] == s[p + k] && t[..k] == s[p..p + k] && t[k + 1] == s[p + k + 1];
    assert IsSpace(t[k + 1..][0]);
  }

  lemma CommaPivot(s: string, p: nat, e: nat)
    requires p < e <= |s|
    requires var t := s[p..e];
             |t| >= 2 && t[0] == ',' && AllSpace(t[1..])
    ensures p + 1 < e && s[p] == ',' && IsSpace(s[p + 1])
  {
    var t := s[p..e];
    assert t[0] == s[p] && t[1] == s[p + 1];
    assert IsSpace(t[1..][0]);
  }

  /** A pivot preceded by white space from `p` and followed by one white-space
      character forms a separator. */
  lemma SeparatorFromPivot(s: string, p: nat, c: nat)
    requires p <= c && c + 1 < |s|
    requires IsPivot(s[c]) && AllSpace(s[p..c]) && IsSpace(s[c + 1]) && (s[c] == ',' ==> c == p)
    ensures ContainsSeparator(s)
  {
    var t := s[p..c + 2];
    assert t[..c - p] == s[p..c] && t[c - p] == s[c] && t[c - p + 1..] == [s[c + 1]];
    assert IsSeparator(t);
  }

  /** At the end of A the matcher consumes exactly the advertised separator. */
  lemma MatchAtAdvertised(a: string, sep: string, b: string)
    requires IsAdvertisedSeparator(sep)
    requires b != [] && !IsSpace(b[0])
    ensures MatchAt(a + sep + b, |a|) == Some(|a| + |sep|)
  {
    var s := a + sep + b;
    var n := |a|;
    assert s[n + |sep|] == b[0];
    if sep == " \U{2014} " || sep == " - " {
      assert s[n] == ' ' && IsDash(s[n + 1]) && s[n + 2] == ' ';
      assert s[n..n + 1] == [' '];
      SkipSpacesStops(s, n, n + 1);
      assert s[n + 2..n + 3] == [' '];
      SkipSpacesStops(s, n + 2, n + 3);
    } else {
      assert s[n] == sep[0] && s[n + 1] == ' ';
      SkipSpacesStops(s, n, n);
      assert s[n + 1..n + 2] == [' '];
      SkipSpacesStops(s, n + 1, n + 2);
    }
  }

  /** The leftmost match is at `a` when nothing matches between `q` and `a`. */
  lemma {:induction false} FirstMatchIs(s: string, q: nat, a: nat)
    requires q <= a < |s| && MatchAt(s, a).Some?
    requires forall p :: q <= p < a ==> MatchAt(s, p).None?
    ensures FirstMatch(s, q) == Some((a, MatchAt(s, a).value))
    decreases a - q
  {
    if q < a {
      FirstMatchIs(s, q + 1, a);
    }
  }

  /** A string in which every dash, colon or comma is followed by a character
      that is not white space holds no separator. */
  lemma NoSeparatorWhenPivotsFollowed(s: string)
    requires PivotsFollowed(s)
    ensures !ContainsSeparator(s)
  {
    forall p, e | 0 <= p < e <= |s|
      ensures !IsSeparator(s[p..e])
    {
      if IsSeparator(s[p..e]) {
        var c := SeparatorPivot(s, p, e);
      }
    }
  }

  /** The first sample line, "polite — shows good manners and respect",
      gives the pair ("polite", "shows good manners and respect"). */
  lemma PoliteExample(term: string, def: string)
    requires term == "polite" && def == "shows good manners and respect"
    ensures ParseLine(term + " \U{2014} " + def) == Some(Pair(term, def))
  {
    PlainHalf(term);
    PlainHalf(def);
    SampleLineParses(term, def);
  }

  /** The hyphen inside "hard-working" is not followed by white space, so the
      line splits only at the em dash. */
  lemma HardWorkingExample(term: string, def: string)
    requires term == "hard-working" && def == "puts in a lot of effort"
    ensures ParseLine(term + " \U{2014} " + def) == Some(Pair(term, def))
  {
    assert term != [] && IsTrimmed(term);
    assert PivotsFollowed(term) by {
      forall i | 0 <= i < |term| - 1 && IsPivot(term[i])
        ensures !IsSpace(term[i + 1])
      {
        assert i == 4;
      }
    }
    PlainHalf(def);
    SampleLineParses(term, def);
  }

  /** A non-empty half that starts and ends with a letter and holds no dash,
      colon or comma meets the conditions of `SampleLineParses`. */
  lemma PlainHalf(s: string)
    requires s != [] && 'a' <= s[0] <= 'z' && 'a' <= s[|s| - 1] <= 'z'
    requires forall i :: 0 <= i < |s| ==> s[i] == ' ' || 'a' <= s[i] <= 'z'
    ensures IsTrimmed(s) && PivotsFollowed(s)
  {
  }

  /** A line `term — definition` in the style of the sample data parses to
      that pair when every dash, colon or comma in either half is followed by
      a visible character. */
  lemma SampleLineParses(a: string, b: string)
    requires a != [] && IsTrimmed(a) && PivotsFollowed(a)
    requires b != [] && IsTrimmed(b) && PivotsFollowed(b)
    ensures ParseLine(a + " \U{2014} " + b) == Some(Pair(a, b))
  {
    var a' := a + " ";
    assert PivotsFollowed(a') by {
      forall i | 0 <= i < |a'| - 1 && IsPivot(a'[i])
        ensures !IsSpace(a'[i + 1])
      {
        assert a'[i] == a[i];
        assert i + 1 < |a|;
        assert a'[i + 1] == a[i + 1];
      }
    }
    NoSeparatorWhenPivotsFollowed(a');
    NoSeparatorWhenPivotsFollowed(b);
    SimpleLineParses(a, " \U{2014} ", b);
  }
}

=== FILE: round.dfy ===
/** The round that the component's hooks hold, made explicit: the pool, the two
    column orders, the matched keys, the selections, the counters and the
    timer, with one pure transition per event. */
module Rounds {
  import opened Options
  import opened Deck
  import opened Shuffling

  datatype Side = Left | Right

  /** The feedback message, by which one was set ("✔️ Correct!", "✖️ Try again"). */
  datatype Message = NoMessage | Correct | TryAgain

  datatype Settings = Settings(roundSize: int, timerOn: bool, timerSec: int, immediateFeedback: bool)

  datatype Round = Round(
    pool: seq<Card>,
    left: seq<Card>,
    right: seq<Card>,
    matched: set<string>,
    selLeft: Option<Card>,
    selRight: Option<Card>,
    score: int,
    mistakes: int,
    streak: int,
    timeLeft: int,
    message: Message)
  {
    function Selected(side: Side): Option<Card> {
      if side == Left then selLeft else selRight
    }

    function Column(side: Side): seq<Card> {
      if side == Left then left else right
    }
  }

  function Other(side: Side): Side {
    if side == Left then Right else Left
  }

  /** The most a round can score with `m` correct matches: every match made
      on an unbroken streak, 100 + 10 * (0 + 1 + ... + (m - 1)). */
  function MaxScore(m: nat): nat {
    100 * m + 5 * m * (m - 1)
  }

  /** A selection on screen is a card of its column whose key is not matched. */
  predicate SelectionOk(sel: Option<Card>, column: seq<Card>, matched: set<string>) {
    sel.Some? ==> sel.value in column && sel.value.key !in matched
  }

  /** What holds between events: both columns show the pool, only keys of the
      pool are matched, at most one side is selected (a second selection is
      evaluated at once), the streak counts matches, and the score lies between
      100 per match and the all-streak maximum. */
  predicate Valid(st: Round) {
    && multiset(st.left) == multiset(st.pool)
    && multiset(st.right) == multiset(st.pool)
    && st.matched <= KeysOf(st.pool)
    && SelectionOk(st.selLeft, st.left, st.matched)
    && SelectionOk(st.selRight, st.right, st.matched)
    && (st.selLeft.None? || st.selRight.None?)
    && 0 <= st.mistakes
    && 0 <= st.streak <= |st.matched|
    && 100 * |st.matched| <= st.score <= MaxScore(|st.matched|)
  }

  /** Line 175: `Object.keys(matched).length >= pool.length && pool.length > 0`. */
  predicate Finished(st: Round)
    ensures Valid(st) ==>
              (Finished(st) <==> |st.pool| > 0 && DistinctKeys(st.pool) && st.matched == KeysOf(st.pool))
  {
    FinishCount(st.pool, st.matched);
    |st.matched| >= |st.pool| && |st.pool| > 0
  }

  /** Lines 131-141 with line 144: a new pool shuffles both columns
      independently and resets all progress and the timer. */
  function StartRound(pool: seq<Card>, timerSec: int, leftDraws: seq<nat>, rightDraws: seq<nat>): (r: Round)
    requires ValidDraws(|pool|, leftDraws) && ValidDraws(|pool|, rightDraws)
    ensures Valid(r) && !Finished(r)
    ensures r.pool == pool && r.matched == {} && r.selLeft.None? && r.selRight.None?
    ensures r.score == 0 && r.mistakes == 0 && r.streak == 0 && r.timeLeft == timerSec
    ensures r.message == NoMessage
  {
    Round(pool, Shuffle(pool, leftDraws), Shuffle(pool, rightDraws), {}, None, None,
          0, 0, 0, timerSec, NoMessage)
  }

  /** Lines 116-119, 177-179 and 266: sample a pool from the deck and start on it. */
  function NewRound(deck: seq<Card>, settings: Settings, poolDraws: seq<nat>,
                    leftDraws: seq<nat>, rightDraws: seq<nat>): (r: Round)
    requires ValidDraws(|deck|, poolDraws)
    requires ValidDraws(|Pool(deck, settings.roundSize, poolDraws)|, leftDraws)
    requires ValidDraws(|Pool(deck, settings.roundSize, poolDraws)|, rightDraws)
    ensures Valid(r) && r.matched == {} && r.score == 0 && r.timeLeft == settings.timerSec
    ensures multiset(r.pool) <= multiset(deck)
    ensures settings.roundSize >= 0 ==> |r.pool| == Min(settings.roundSize, |deck|)
  {
    StartRound(Pool(deck, settings.roundSize, poolDraws), settings.timerSec, leftDraws, rightDraws)
  }

  /** Lines 181-192: reshuffle both columns of the same pool and reset progress. */
  function ResetSameRound(st: Round, timerSec: int, leftDraws: seq<nat>, rightDraws: seq<nat>): (r: Round)
    requires ValidDraws(|st.pool|, leftDraws) && ValidDraws(|st.pool|, rightDraws)
    ensures Valid(r) && r.pool == st.pool
    ensures r.matched == {} && r.selLeft.None? && r.selRight.None?
    ensures r.score == 0 && r.mistakes == 0 && r.streak == 0 && r.timeLeft == timerSec
    ensures r.message == NoMessage
  {
    st.(left := Shuffle(st.pool, leftDraws), right := Shuffle(st.pool, rightDraws),
        matched := {}, selLeft := None, selRight := None,
        score := 0, mistakes := 0, streak := 0, message := NoMessage, timeLeft := timerSec)
  }

  /** Resetting the same round is starting a new round on the same pool. */
  lemma ResetIsRestart(st: Round, timerSec: int, leftDraws: seq<nat>, rightDraws: seq<nat>)
    requires ValidDraws(|st.pool|, leftDraws) && ValidDraws(|st.pool|, rightDraws)
    ensures ResetSameRound(st, timerSec, leftDraws, rightDraws)
            == StartRound(st.pool, timerSec, leftDraws, rightDraws)
  {
  }

  /** Line 144 on a change of `timerSec`: the countdown restarts from it. */
  function SetTimerSec(st: Round, timerSec: int): Round
  {
    st.(timeLeft := timerSec)
  }

  /** Lines 323-329: a click on a card of one column. A matched card's button is
      disabled; clicking the selected card (same `id`) clears the selection;
      any other card becomes the selection. */
  function Select(st: Round, side: Side, card: Card): (r: Round)
    ensures r == st.(selLeft := r.selLeft, selRight := r.selRight)
    ensures r.Selected(Other(side)) == st.Selected(Other(side))
    ensures card.key in st.matched ==> r == st
    ensures card.key !in st.matched ==>
              (r.Selected(side).None? <==> st.Selected(side).Some? && st.Selected(side).value.id == card.id)
    ensures r.Selected(side).Some? ==> r.Selected(side) == Some(card) || card.key in st.matched
  {
    if card.key in st.matched then st
    else
      var isSelected := st.Selected(side).Some? && st.Selected(side).value.id == card.id;
      var sel := if isSelected then None else Some(card);
      if side == Left then st.(selLeft := sel) else st.(selRight := sel)
  }

  /** Lines 153-165, `tryMatch`: equal keys are a correct match. The reward uses
      the streak before it is incremented. */
  function TryMatch(st: Round, l: Card, r: Card): (res: Round)
    ensures res == st.(matched := res.matched, score := res.score, streak := res.streak,
                       mistakes := res.mistakes, message := res.message)
    ensures l.key == r.key <==> res.message == Correct
    ensures l.key == r.key ==>
              && res.matched == st.matched + {l.key} && res.score == st.score + 100 + 10 * st.streak
              && res.streak == st.streak + 1 && res.mistakes == st.mistakes
    ensures l.key != r.key ==>
              && res.matched == st.matched && res.score == st.score
              && res.streak == 0 && res.mistakes == st.mistakes + 1 && res.message == TryAgain
  {
    if l.key == r.key then
      st.(matched := st.matched + {l.key}, score := st.score + 100 + st.streak * 10,
          streak := st.streak + 1, message := Correct)
    else
      st.(mistakes := st.mistakes + 1, streak := 0, message := TryAgain)
  }

  /** Lines 167-173: once both sides hold a selection the pair is evaluated and
      both selections are cleared. */
  function Evaluate(st: Round): (r: Round)
    ensures st.selLeft.None? || st.selRight.None? ==> r == st
    ensures st.selLeft.Some? && st.selRight.Some? ==>
              && r.selLeft.None? && r.selRight.None?
              && r.pool == st.pool && r.left == st.left && r.right == st.right
              && r.timeLeft == st.timeLeft
    ensures st.selLeft.Some? && st.selRight.Some? && st.selLeft.value.key == st.selRight.value.key ==>
              && r.matched == st.matched + {st.selLeft.value.key}
              && r.score == st.score + 100 + st.streak * 10
              && r.streak == st.streak + 1 && r.mistakes == st.mistakes && r.message == Correct
    ensures st.selLeft.Some? && st.selRight.Some? && st.selLeft.value.key != st.selRight.value.key ==>
              && r.matched == st.matched && r.score == st.score
              && r.mistakes == st.mistakes + 1 && r.streak == 0 && r.message == TryAgain
  {
    if st.selLeft.Some? && st.selRight.Some? then
      TryMatch(st, st.selLeft.value, st.selRight.value).(selLeft := None, selRight := None)
    else st
  }

  /** A click as the player sees it: the selection, then the effect that
      evaluates a complete pair. */
  function Click(st: Round, side: Side, card: Card): (r: Round)
    ensures r.pool == st.pool && r.left == st.left && r.right == st.right && r.timeLeft == st.timeLeft
    ensures r.selLeft.None? || r.selRight.None?
    ensures st.matched <= r.matched && |r.matched| <= |st.matched| + 1
    ensures st.mistakes <= r.mistakes <= st.mistakes + 1
    ensures card.key in st.matched && (st.selLeft.None? || st.selRight.None?) ==> r == st
  {
    Evaluate(Select(st, side, card))
  }

  /** Lines 145-151: one second passes. The countdown runs only with the timer
      on, while fewer keys are matched than the pool has cards, and above zero. */
  function Tick(st: Round, timerOn: bool): (r: Round)
    ensures r == st.(timeLeft := r.timeLeft)
    ensures st.timeLeft - 1 <= r.timeLeft <= st.timeLeft
    ensures r.timeLeft < st.timeLeft <==> timerOn && |st.matched| < |st.pool| && st.timeLeft > 0
    ensures st.timeLeft >= 0 ==> r.timeLeft >= 0
  {
    if !timerOn then st
    else if |st.matched| >= |st.pool| then st
    else if st.timeLeft <= 0 then st
    else st.(timeLeft := st.timeLeft - 1)
  }

  /** `n` ticks in a row. */
  function Ticks(st: Round, timerOn: bool, n: nat): Round
    decreases n
  {
    if n == 0 then st else Ticks(Tick(st, timerOn), timerOn, n - 1)
  }

  /** With the timer on and the round open, `n` ticks take `n` seconds off,
      stopping at zero and never below. */
  lemma {:induction false} TicksCountDown(st: Round, n: nat)
    requires |st.matched| < |st.pool| && st.timeLeft >= 0
    ensures Ticks(st, true, n) == st.(timeLeft := if st.timeLeft >= n then st.timeLeft - n else 0)
    decreases n
  {
    if n > 0 {
      TicksCountDown(Tick(st, true), n - 1);
    }
  }

  /** A click on a card of its own column keeps the round valid. */
  lemma ClickPreservesValid(st: Round, side: Side, card: Card)
    requires Valid(st) && card in st.Column(side)
    ensures Valid(Click(st, side, card))
  {
    var s1 := Select(st, side, card);
    if s1.selLeft.Some? && s1.selRight.Some? {
      var l, r := s1.selLeft.value, s1.selRight.value;
      assert l in st.left && r in st.right;
      assert l.key !in st.matched;
      if l.key == r.key {
        assert l in multiset(st.pool);
        assert l.key in KeysOf(st.pool);
        var m := |st.matched|;
        assert |st.matched + {l.key}| == m + 1;
        assert MaxScore(m) + 100 + 10 * m == MaxScore(m + 1);
      }
    }
  }

  /** Ticking only moves the clock. */
  lemma TickPreservesValid(st: Round, timerOn: bool)
    requires Valid(st)
    ensures Valid(Tick(st, timerOn))
  {
  }

  /** When only keys of the pool are matched, there are at least as many
      matched keys as cards exactly when the keys are distinct and all of them
      are matched. */
  lemma FinishCount(pool: seq<Card>, matched: set<string>)
    ensures matched <= KeysOf(pool) ==>
              (|matched| >= |pool| && |pool| > 0 <==> |pool| > 0 && DistinctKeys(pool) && matched == KeysOf(pool))
  {
    if matched <= KeysOf(pool) {
      KeysOfSize(pool);
      SubsetSize(matched, KeysOf(pool));
      if |matched| >= |pool| {
        SubsetSize(KeysOf(pool), matched);
      }
    }
  }

  /** A subset is no larger than its superset, and only equally large when equal. */
  lemma SubsetSize<T>(a: set<T>, b: set<T>)
    requires a <= b
    ensures |a| <= |b|
    ensures |a| == |b| ==> a == b
  {
    assert b == a + (b - a);
    assert a * (b - a) == {};
    assert |b| == |a| + |b - a|;
    if |a| == |b| {
      assert |b - a| == 0;
      assert b - a == {};
    }
  }

  /** The key quirk: with two cards of one key in the pool, the round can never
      be finished. */
  lemma DuplicateKeysNeverFinish(st: Round)
    requires Valid(st) && !DistinctKeys(st.pool)
    ensures !Finished(st)
  {
  }

  /** Once every key of the pool is matched, every card is disabled: no click
      changes anything, even when the round does not count as finished. */
  lemma AllKeysMatchedIsStuck(st: Round, side: Side, card: Card)
    requires Valid(st) && st.matched == KeysOf(st.pool) && card in st.Column(side)
    ensures Click(st, side, card) == st
  {
    assert card in multiset(st.pool);
    assert card.key in KeysOf(st.pool);
  }

  /** Clicking the same free card twice from an empty selection on its side
      selects it and then clears it again. */
  lemma SelectToggles(st: Round, side: Side, card: Card)
    requires card.key !in st.matched && st.Selected(side).None?
    ensures Select(st, side, card).Selected(side) == Some(card)
    ensures Select(Select(st, side, card), side, card) == st
  {
  }

  /** A sequence of clicks, each a column and a card of it. */
  function Play(st: Round, clicks: seq<(Side, Card)>): Round
    decreases |clicks|
  {
    if clicks == [] then st else Play(Click(st, clicks[0].0, clicks[0].1), clicks[1..])
  }

  /** Every click lands on a card shown in its column. */
  predicate OnBoard(st: Round, clicks: seq<(Side, Card)>) {
    forall i :: 0 <= i < |clicks| ==> clicks[i].1 in st.Column(clicks[i].0)
  }

  /** Any game played on the board keeps the round valid: the columns never
      change, so every click stays on the board. */
  lemma {:induction false} PlayPreservesValid(st: Round, clicks: seq<(Side, Card)>)
    requires Valid(st) && OnBoard(st, clicks)
    ensures Valid(Play(st, clicks))
    ensures Play(st, clicks).pool == st.pool && Play(st, clicks).left == st.left
    ensures Play(st, clicks).right == st.right
    decreases |clicks|
  {
    if clicks != [] {
      var next := Click(st, clicks[0].0, clicks[0].1);
      ClickPreservesValid(st, clicks[0].0, clicks[0].1);
      assert OnBoard(next, clicks[1..]) by {
        forall i | 0 <= i < |clicks[1..]|
          ensures clicks[1..][i].1 in next.Column(clicks[1..][i].0)
        {
          assert clicks[1..][i] == clicks[i + 1];
        }
      }
      PlayPreservesValid(next, clicks[1..]);
    }
  }

  /** Two cards of the example round. */
  const Polite := Card("p", "polite", "shows good manners", MakeKey("polite", "shows good manners"))
  const Shy := Card("s", "shy", "nervous with people", MakeKey("shy", "nervous with people"))

  /** The example round: both pairs, with the right column in the other order. */
  const ExampleStart := Round([Polite, Shy], [Polite, Shy], [Shy, Polite], {}, None, None,
                              0, 0, 0, 180, NoMessage)

  /** The example round after "polite" is matched on the first try. */
  const AfterPolite := ExampleStart.(matched := {Polite.key}, score := 100, streak := 1, message := Correct)

  /** The example round after "polite" is paired with "nervous with people". */
  const AfterMistake := ExampleStart.(mistakes := 1, message := TryAgain)

  lemma ExampleKeysDiffer()
    ensures Polite.key != Shy.key
  {
    assert Polite.key[1] != Shy.key[1];
  }

  /** The first correct match scores 100 and starts the streak. */
  lemma ExampleFirstMatch()
    ensures Click(Click(ExampleStart, Left, Polite), Right, Polite) == AfterPolite
  {
    var s1 := Click(ExampleStart, Left, Polite);
    assert s1 == ExampleStart.(selLeft := Some(Polite));
    assert {} + {Polite.key} == {Polite.key};
  }

  /** A wrong first pair counts a mistake and clears both selections. */
  lemma ExampleWrongPair()
    ensures Click(Click(ExampleStart, Left, Polite), Right, Shy) == AfterMistake
  {
    ExampleKeysDiffer();
    var s1 := Click(ExampleStart, Left, Polite);
    assert s1 == ExampleStart.(selLeft := Some(Polite));
  }

  /** Matching "polite" first, then the shy pair, is a finished round in which
      the second match earns the streak bonus. */
  lemma ExampleCleanGame()
    ensures Valid(ExampleStart)
    ensures var r := Click(Click(Click(Click(ExampleStart, Left, Polite), Right, Polite), Left, Shy), Right, Shy);
            && Finished(r) && r.score == 210 && r.streak == 2 && r.mistakes == 0
            && r.matched == KeysOf(ExampleStart.pool)
  {
    ExampleKeysDiffer();
    ExampleFirstMatch();
    assert KeysOf(ExampleStart.pool) == {Polite.key, Shy.key};
    var s3 := Click(AfterPolite, Left, Shy);
    assert s3 == AfterPolite.(selLeft := Some(Shy));
    var s4 := Click(s3, Right, Shy);
    assert s4.matched == {Polite.key, Shy.key} && s4.score == 210;
  }

  /** A wrong pair costs a mistake and the streak, and the next correct match
      earns no bonus. */
  lemma ExampleWithMistake()
    ensures var r := Click(Click(ExampleStart, Left, Polite), Right, Shy);
            && r.mistakes == 1 && r.streak == 0 && r.matched == {} && r.score == 0
            && r.selLeft.None? && r.selRight.None? && r.message == TryAgain
    ensures var r := Click(Click(Click(Click(ExampleStart, Left, Polite), Right, Shy), Left, Shy), Right, Shy);
            && r.score == 100 && r.streak == 1 && r.mistakes == 1 && !Finished(r)
  {
    ExampleWrongPair();
    var s3 := Click(AfterMistake, Left, Shy);
    assert s3 == AfterMistake.(selLeft := Some(Shy));
    var s4 := Click(s3, Right, Shy);
    assert s4.matched == {Shy.key} && s4.score == 100;
  }

  /** Once "shows good manners" is matched its button is disabled: a click on it
      leaves "shy" selected, a second click on "shy" clears it, and choosing
      "nervous with people" then only selects the right side. */
  lemma ExampleClickOnMatchedCard()
    ensures var r := Click(Click(Click(Click(ExampleStart, Left, Polite), Right, Polite), Left, Shy), Right, Polite);
            && r.selLeft == Some(Shy) && r.mistakes == 0 && r.streak == 1 && r.score == 100
    ensures var r := Click(Click(Click(Click(Click(Click(ExampleStart, Left, Polite), Right, Polite),
                                                  Left, Shy), Right, Polite), Left, Shy), Right, Shy);
            && r.selLeft.None? && r.selRight == Some(Shy) && !Finished(r) && r.score == 100
  {
    ExampleKeysDiffer();
    ExampleFirstMatch();
    var s3 := Click(AfterPolite, Left, Shy);
    assert s3 == AfterPolite.(selLeft := Some(Shy));
    var s4 := Click(s3, Right, Polite);
    assert s4 == s3;
    var s5 := Click(s4, Left, Shy);
    assert s5 == AfterPolite;
    var s6 := Click(s5, Right, Shy);
    assert s6 == AfterPolite.(selRight := Some(Shy));
  }

  /** Two cards of one pair, told apart only by their identifiers. */
  const Twin1 := Card("a", "tall", "of great height", MakeKey("tall", "of great height"))
  const Twin2 := Card("b", "tall", "of great height", MakeKey("tall", "of great height"))

  /** The duplicate-key quirk on a concrete round: one correct match disables
      both copies, every key is matched, and the round is still not finished. */
  lemma ExampleDuplicateKey()
    ensures var st := Round([Twin1, Twin2], [Twin1, Twin2], [Twin2, Twin1], {}, None, None,
                            0, 0, 0, 180, NoMessage);
            var r := Click(Click(st, Left, Twin1), Right, Twin2);
            && Valid(st) && r.matched == KeysOf(st.pool) && !Finished(r)
            && Click(r, Left, Twin2) == r && Click(r, Right, Twin1) == r
  {
    var st := Round([Twin1, Twin2], [Twin1, Twin2], [Twin2, Twin1], {}, None, None,
                    0, 0, 0, 180, NoMessage);
    assert KeysOf(st.pool) == {Twin1.key};
    var s1 := Click(st, Left, Twin1);
    assert s1 == st.(selLeft := Some(Twin1));
    var s2 := Click(s1, Right, Twin2);
    assert s2.matched == {Twin1.key};
  }
}

=== FILE: shuffle.dfy ===
/** `shuffle`: the Fisher–Yates loop over a copy of the input, with the
    random draws `Math.floor(Math.random() * (i + 1))` supplied as a sequence;
    and the pool of a round, a prefix of a shuffled deck. */
module Shuffling {

  /** `[copy[i], copy[j]] = [copy[j], copy[i]]`. */
  function Swap<T>(s: seq<T>, i: nat, j: nat): (r: seq<T>)
    requires i < |s| && j < |s|
    ensures |r| == |s| && r[i] == s[j] && r[j] == s[i]
    ensures forall k :: 0 <= k < |s| && k != i && k != j ==> r[k] == s[k]
  {
    s[i := s[j]][j := s[i]]
  }

  /** A swap only reorders: the multiset of elements is unchanged. */
  lemma SwapPermutes<T>(s: seq<T>, i: nat, j: nat)
    requires i < |s| && j < |s|
    ensures multiset(Swap(s, i, j)) == multiset(s)
  {
  }

  /** Draws for shuffling `n` elements, in the order the loop makes them: the
      k-th draw is made for index `n - 1 - k` and lies in `[0, n - 1 - k]`. */
  predicate ValidDraws(n: nat, js: seq<nat>) {
    && |js| == (if n == 0 then 0 else n - 1)
    && forall k :: 0 <= k < |js| ==> js[k] < n - k
  }

  /** The loop from index `i` down to 1, swapping index `i` with the next draw. */
  function SwapDown<T>(s: seq<T>, i: nat, js: seq<nat>): (r: seq<T>)
    requires i < |s| || i == 0
    requires |js| == i && forall k :: 0 <= k < i ==> js[k] <= i - k
    ensures |r| == |s|
    ensures forall k :: i < k < |s| ==> r[k] == s[k]
    ensures i > 0 ==> r[i] == s[js[0]]
    decreases i
  {
    if i == 0 then s
    else SwapDown(Swap(s, i, js[0]), i - 1, js[1..])
  }

  /** The swap loop only reorders, one swap at a time. */
  lemma {:induction false} SwapDownPermutes<T>(s: seq<T>, i: nat, js: seq<nat>)
    requires i < |s| || i == 0
    requires |js| == i && forall k :: 0 <= k < i ==> js[k] <= i - k
    ensures multiset(SwapDown(s, i, js)) == multiset(s)
    decreases i
  {
    if i > 0 {
      var s1, rest := Swap(s, i, js[0]), js[1..];
      SwapPermutes(s, i, js[0]);
      assert forall k :: 0 <= k < i - 1 ==> rest[k] == js[k + 1];
      SwapDownPermutes(s1, i - 1, rest);
    }
  }

  /** `shuffle(arr)`: a new sequence; the argument, a value, is untouched. */
  function Shuffle<T>(arr: seq<T>, js: seq<nat>): (r: seq<T>)
    requires ValidDraws(|arr|, js)
    ensures |r| == |arr| && multiset(r) == multiset(arr)
    ensures |arr| <= 1 ==> r == arr
    ensures |arr| >= 2 ==> r[|arr| - 1] == arr[js[0]]
  {
    if |arr| == 0 then arr
    else SwapDownPermutes(arr, |arr| - 1, js); SwapDown(arr, |arr| - 1, js)
  }

  /** Drawing every index itself swaps nothing: the input comes back as it was. */
  lemma {:induction false} SwapDownIdentity<T>(s: seq<T>, i: nat, js: seq<nat>)
    requires i < |s| || i == 0
    requires |js| == i && forall k :: 0 <= k < i ==> js[k] == i - k
    ensures SwapDown(s, i, js) == s
    decreases i
  {
    if i > 0 {
      var rest := js[1..];
      var s1 := Swap(s, i, js[0]);
      assert s1 == s by {
        assert js[0] == i;
        SwapSelf(s, i);
      }
      forall k | 0 <= k < i - 1
        ensures rest[k] == i - 1 - k
      {
        assert rest[k] == js[k + 1];
      }
      SwapDownIdentity(s, i - 1, rest);
    }
  }

  lemma SwapSelf<T>(s: seq<T>, i: nat)
    requires i < |s|
    ensures Swap(s, i, i) == s
  {
  }

  lemma ShuffleIdentity<T>(arr: seq<T>, js: seq<nat>)
    requires ValidDraws(|arr|, js)
    requires forall k :: 0 <= k < |js| ==> js[k] == |arr| - 1 - k
    ensures Shuffle(arr, js) == arr
  {
    if |arr| > 0 {
      SwapDownIdentity(arr, |arr| - 1, js);
    }
  }

  /** The length `arr.slice(0, end)` keeps of an array of length `n`: a
      negative end counts back from the end of the array. */
  function SliceLength(end: int, n: nat): (k: nat)
    ensures k <= n
  {
    if end < 0 then (if n + end < 0 then 0 else n + end)
    else if end < n then end
    else n
  }

  function Min(a: int, b: int): int {
    if a < b then a else b
  }

  /** Lines 116-118 and 178: `shuffle(allPairs).slice(0, Math.min(roundSize, allPairs.length))`. */
  function Pool<T>(deck: seq<T>, roundSize: int, js: seq<nat>): (pool: seq<T>)
    requires ValidDraws(|deck|, js)
    ensures |pool| <= |deck|
    ensures 0 <= roundSize ==> |pool| == Min(roundSize, |deck|)
    ensures roundSize < 0 ==> |pool| == (if |deck| + roundSize < 0 then 0 else |deck| + roundSize)
    ensures multiset(pool) <= multiset(deck)
    ensures pool == Shuffle(deck, js)[..|pool|]
  {
    var shuffled := Shuffle(deck, js);
    var k := SliceLength(Min(roundSize, |deck|), |deck|);
    assert shuffled == shuffled[..k] + shuffled[k..];
    shuffled[..k]
  }

  /** A round size at least the deck's takes the whole deck, reordered. */
  lemma PoolWholeDeck<T>(deck: seq<T>, roundSize: int, js: seq<nat>)
    requires ValidDraws(|deck|, js) && roundSize >= |deck|
    ensures multiset(Pool(deck, roundSize, js)) == multiset(deck)
  {
    var pool := Pool(deck, roundSize, js);
    assert pool == Shuffle(deck, js);
  }
}

=== FILE: text.dfy ===
/** String helpers with JavaScript's meaning: the white-space class shared by
    the regular-expression escape `\s` and `String.prototype.trim`, trimming,
    and splitting a text on runs of newlines (`text.split(/\n+/)`). */
module Text {

  /** The WhiteSpace and LineTerminator code points of ECMAScript: exactly the
      characters `\s` matches and `trim()` removes. */
  predicate IsSpace(c: char) {
    || c == '\t' || c == '\n' || c == '\U{B}' || c == '\U{C}' || c == '\r'
    || c == ' ' || c == '\U{A0}' || c == '\U{1680}'
    || ('\U{2000}' <= c <= '\U{200A}')
    || c == '\U{2028}' || c == '\U{2029}' || c == '\U{202F}' || c == '\U{205F}'
    || c == '\U{3000}' || c == '\U{FEFF}'
  }

  predicate AllSpace(s: string) {
    forall i :: 0 <= i < |s| ==> IsSpace(s[i])
  }

  /** Neither the first nor the last character is white space. */
  predicate IsTrimmed(s: string) {
    s == [] || (!IsSpace(s[0]) && !IsSpace(s[|s| - 1]))
  }

  /** `s` with its leading white space removed. */
  function TrimStart(s: string): (r: string)
    ensures |r| <= |s| && r == s[|s| - |r|..]
    ensures AllSpace(s[..|s| - |r|])
    ensures r == [] || !IsSpace(r[0])
  {
    if s != [] && IsSpace(s[0]) then TrimStart(s[1..]) else s
  }

  /** `s` with its trailing white space removed. */
  function TrimEnd(s: string): (r: string)
    ensures |r| <= |s| && r == s[..|r|]
    ensures AllSpace(s[|r|..])
    ensures r == [] || !IsSpace(r[|r| - 1])
  {
    if s != [] && IsSpace(s[|s| - 1]) then TrimEnd(s[..|s| - 1]) else s
  }

  /** `String.prototype.trim`: `s` with the white space at both ends cut off. */
  function Trim(s: string): (r: string)
    ensures IsTrimmed(r) && |r| <= |s|
  {
    var t := TrimStart(s);
    assert TrimEnd(t) != [] ==> TrimEnd(t)[0] == t[0];
    TrimEnd(t)
  }

  /** `r` sits in `s` at offset `a` with only white space around it. */
  predicate SpaceAround(s: string, r: string, a: nat) {
    && a + |r| <= |s| && r == s[a..a + |r|]
    && AllSpace(s[..a]) && AllSpace(s[a + |r|..])
  }

  /** What trimming keeps is a stretch of `s` with only white space around it. */
  lemma TrimIsInfix(s: string)
    ensures exists a :: SpaceAround(s, Trim(s), a)
  {
    var a := TrimOffset(s);
  }

  /** The offset at which the trimmed text starts: the length of the leading
      whitespace. */
  lemma TrimOffset(s: string) returns (a: nat)
    ensures SpaceAround(s, Trim(s), a)
  {
    var t := TrimStart(s);
    var r := TrimEnd(t);
    a := |s| - |t|;
    assert Trim(s) == r;
    TrimEndInside(s, t, r, a);
  }

  lemma TrimEndInside(s: string, t: string, r: string, a: nat)
    requires a <= |s| && t == s[a..] && AllSpace(s[..a])
    requires |r| <= |t| && r == t[..|r|] && AllSpace(t[|r|..])
    ensures SpaceAround(s, r, a)
  {
    assert t[|r|..] == s[a + |r|..];
  }

  /** Trimming leaves an already trimmed string alone. */
  lemma TrimTrimmed(s: string)
    requires IsTrimmed(s)
    ensures Trim(s) == s
  {
  }

  /** Trimming twice is trimming once. */
  lemma TrimIdempotent(s: string)
    ensures Trim(Trim(s)) == Trim(s)
  {
    TrimTrimmed(Trim(s));
  }

  /** Trimming an all-white-space string leaves nothing, and only then. */
  lemma {:induction false} TrimEmptyIffAllSpace(s: string)
    ensures Trim(s) == [] <==> AllSpace(s)
  {
    if AllSpace(s) {
      TrimStartAllSpace(s);
    }
  }

  lemma {:induction false} TrimStartAllSpace(s: string)
    requires AllSpace(s)
    ensures TrimStart(s) == []
    decreases |s|
  {
    if s != [] {
      TrimStartAllSpace(s[1..]);
    }
  }

  /** The newlines at the front of `s` removed. */
  function DropNewlines(s: string): (r: string)
    ensures |r| <= |s| && r == s[|s| - |r|..]
    ensures r == [] || r[0] != '\n'
    ensures forall i :: 0 <= i < |s| - |r| ==> s[i] == '\n'
  {
    if s != [] && s[0] == '\n' then DropNewlines(s[1..]) else s
  }

  /** `s.split(/\n+/)`: the pieces between maximal runs of newlines; a text
      that starts or ends with a newline gets an empty first or last piece. */
  function Lines(s: string): (ls: seq<string>)
    ensures |ls| >= 1
    ensures forall i :: 0 <= i < |ls| ==> '\n' !in ls[i]
    decreases |s|
  {
    if s == [] then [[]]
    else if s[0] == '\n' then [[]] + Lines(DropNewlines(s))
    else
      var ls := Lines(s[1..]);
      [[s[0]] + ls[0]] + ls[1..]
  }

  /** A text without newlines is one line. */
  lemma {:induction false} LinesSingle(s: string)
    requires '\n' !in s
    ensures Lines(s) == [s]
    decreases |s|
  {
    if s != [] {
      assert s[0] != '\n';
      LinesSingle(s[1..]);
      assert [s[0]] + s[1..] == s;
    }
  }

  /** A first line ended by a newline is split off whole; the rest of the
      text is split after dropping any further newlines of the same run. */
  lemma {:induction false} LinesCons(l: string, rest: string)
    requires '\n' !in l
    ensures Lines(l + "\n" + rest) == [l] + Lines(DropNewlines(rest))
    decreases |l|
  {
    var s := l + "\n" + rest;
    if l == [] {
      assert s == "\n" + rest;
      assert DropNewlines(s) == DropNewlines(rest);
    } else {
      var t := l[1..] + "\n" + rest;
      assert s == [l[0]] + t;
      LinesCons(l[1..], rest);
      LinesExtend(l[0], t);
      assert [l[0]] + l[1..] == l;
    }
  }

  /** A character other than a newline joins the first line. */
  lemma LinesExtend(c: char, t: string)
    requires c != '\n'
    ensures Lines([c] + t) == [[c] + Lines(t)[0]] + Lines(t)[1..]
  {
    assert ([c] + t)[1..] == t;
  }

  /** The number of characters in all the pieces together. */
  function TotalLength(pieces: seq<string>): nat {
    if pieces == [] then 0 else |pieces[0]| + TotalLength(pieces[1..])
  }

  /** `pieces.join(" ")`: every character of every piece, one space between
      neighbours, the first piece at the front and the last at the back. */
  function JoinSpace(pieces: seq<string>): (r: string)
    ensures |pieces| == 0 ==> r == []
    ensures |pieces| == 1 ==> r == pieces[0]
    ensures |pieces| >= 1 ==> |r| == TotalLength(pieces) + |pieces| - 1
    ensures |pieces| >= 1 ==> r[..|pieces[0]|] == pieces[0]
    ensures |pieces| >= 1 ==>
              |pieces[|pieces| - 1]| <= |r| && r[|r| - |pieces[|pieces| - 1]|..] == pieces[|pieces| - 1]
  {
    if |pieces| == 0 then []
    else if |pieces| == 1 then pieces[0]
    else
      var rest := JoinSpace(pieces[1..]);
      var r := pieces[0] + " " + rest;
      assert pieces[|pieces| - 1] == pieces[1..][|pieces[1..]| - 1];
      assert r[|r| - |rest|..] == rest;
      r
  }

  /** `pieces[0] + seps[0] + pieces[1] + ... + seps[n - 1] + pieces[n]`. */
  function Interleave(pieces: seq<string>, seps: seq<string>): string
    requires |pieces| >= 1 && |seps| == |pieces| - 1
    decreases |pieces|
  {
    if |pieces| == 1 then pieces[0]
    else pieces[0] + seps[0] + Interleave(pieces[1..], seps[1..])
  }

  lemma InterleaveCons(p0: string, s0: string, ps: seq<string>, ss: seq<string>)
    requires |ps| >= 1 && |ss| == |ps| - 1
    ensures Interleave([p0] + ps, [s0] + ss) == p0 + s0 + Interleave(ps, ss)
  {
    assert ([p0] + ps)[1..] == ps && ([s0] + ss)[1..] == ss;
  }

  /** `join(" ")` is the pieces interleaved with single spaces. */
  lemma {:induction false} JoinSpaceInterleave(pieces: seq<string>)
    requires |pieces| >= 1
    ensures JoinSpace(pieces) == Interleave(pieces, seq(|pieces| - 1, _ => " "))
    decreases |pieces|
  {
    if |pieces| > 1 {
      var spaces := seq(|pieces| - 1, _ => " ");
      JoinSpaceInterleave(pieces[1..]);
      assert spaces[1..] == seq(|pieces| - 2, _ => " ");
    }
  }
}
